=== FILE: README.md ===
# Activision privacy-report visualiser: the parsing and transformation core in Dafny

The visualiser reads an Activision "data subject access" report exported as
HTML. It folds the report's `h1`, `h2` and `table` nodes into a
game → stat category → rows hierarchy and reads the report id from the first
paragraph. It then runs every game through a registry of per-game
transformers: the module `js/transformGames/<title without white space>.js`.
The Cold War transformer folds the positional 30-column match rows into
running totals, a last-non-zero lifetime snapshot and one record per match.
Finally it charts the Cold War multiplayer kills, summed per UTC day.

The Dafny modules follow that structure:

- `Wrappers` (`wrappers.dfy`): `Option` and `Result`.
- `Text` (`text.dfy`): the JavaScript string primitives the code relies on:
  - the ECMAScript white-space set;
  - `parseInt` with no radix, including its `|| fallback` idiom;
  - `replace(/\s+/g, '')`;
  - `toLowerCase` and `includes`, used to find the game by title.
- `Report` (`report.dfy`): `parseHTMLContent`.
  - The parser's `currentGame` always aliases the last element of `games`, so
    the fold state is the list of games alone.
  - An `h2` or `table` met with no current game dereferences `null`. This is
    the `Failure(NoCurrentGame(position))` result.
- `ColdWar` (`coldwar.dfy`): `transformColdWarData`.
  - A row is first destructured by position into a `RowReading`. Each
    numeric cell is read once as `parseInt(cell) || 0`.
  - The forEach-in-forEach over categories and rows is then proved equal to
    one fold over all non-header rows.
- `Registry` (`registry.dfy`): `transformGameData`.
  - The dynamic import becomes a lookup in a finite map from module key to
    transformer.
  - The only shipped module is `ColdWar`.
  - The `for … of` loop that builds `transformedGames` is the method
    `TransformAll`.
- `DailyKills` (`daily.dfy`): `generateTemporaryPage` up to the chart data.
  - It picks the game and its multiplayer category and drops the header row.
  - It computes each row's UTC day, then sums kills per day, listing days in
    the order they are first met.
  - `AggregateByDay` is the loop over the `aggregatedData` object, with the
    object as a map and its keys as an insertion-ordered sequence.
- `Pipeline` (`pipeline.dfy`): `reader.onload`, which runs parse →
  transform → page.
  - It also holds worked examples: one-match and same-day reports, and the
    report that makes the page throw (see Findings).

Two behaviours of the code a reader might not expect:

- An `h2` or `table` before any game-starting `h1` reads the missing current
  game and throws.
- The totals are plain sums of whatever `parseInt` reads, so a cell such as
  "-3" makes them negative (`Pipeline.NegativeKillsLowerTotal`). They are not
  guaranteed non-negative.

## Model

| member | source | states |
|---|---|---|
| Text.ParseInt | js/transformGames/ColdWar.js:61-66 | `parseInt` with no radix: a cell of white space only reads as `NaN`; a cell starting with a decimal digit and no `0x` reads as a number, never negative |
| Text.ParseSigned | js/transformGames/ColdWar.js:61-66 | after the white space: an empty rest is `NaN`, and a negative value needs a leading `-` |
| Text.IntOr | js/transformGames/ColdWar.js:61-75 | `parseInt(cell) \|\| fallback` differs from the fallback only when the cell is present and reads as that non-zero number |
| Text.ParseShowInt | js/transformGames/ColdWar.js:61-66 | `parseInt` reads every integer written in decimal back as itself |
| Text.ParseIntSkipsSpaces | js/transformGames/ColdWar.js:61-66 | white space before a cell changes nothing `parseInt` reads |
| Text.ParseIntNoDigits | js/transformGames/ColdWar.js:61-66 | a cell with no decimal digit at all reads as `NaN` |
| Text.ParseIntLeadingDigit | js/transformGames/ColdWar.js:61-66 | a cell starting with a decimal digit (and no `0x`) reads as the value of its leading digits, whatever follows them ("12px" reads 12) |
| Text.MagnitudeIsValue | js/transformGames/ColdWar.js:61-66 | the digit-by-digit read equals the most-significant-first value of the longest digit prefix, and is `NaN` exactly when there is none |
| Text.IntOrFallback | js/transformGames/ColdWar.js:69-75 | `parseInt(cell) \|\| v` is `v` exactly when the cell is missing, unreadable or 0; otherwise it is the value read |
| Text.LeadingSpaces | js/script.js:167 | the white-space run matched by `\s*` is maximal: all white space, and followed by none |
| Text.DigitRun | js/script.js:167 | the digit run matched by `\d+` is maximal: all digits, and followed by none |
| Text.RemoveSpaces | js/script.js:209 | the module key holds no white space and is no longer than the title |
| Text.RemoveSpacesKeeps | js/script.js:209 | exactly the title's non-space characters survive in the key |
| Text.RemoveSpacesIdempotent | js/script.js:209 | stripping white space twice is stripping it once |
| Text.RemoveSpacesAppend | js/script.js:209 | stripping distributes over concatenation |
| Text.LowerAscii | js/script.js:24 | `toLowerCase` leaves no upper-case ASCII letter, maps each to its lower-case partner and keeps every other character, so the length is kept |
| Text.LowerAsciiIdempotent | js/script.js:24 | lower-casing twice is lower-casing once |
| Text.LowerAsciiAppend | js/script.js:24 | lower-casing distributes over concatenation |
| Text.Contains | js/script.js:24 | `includes` finds the empty needle in every string and never a needle longer than the string |
| Text.ContainsWithin | js/script.js:24 | a needle found in a string is found in any text that surrounds it |
| Report.ParseReport | js/script.js:162-204 | a parsed report has one game per game-starting `h1` and a report id that is either "Unknown Report ID" or starts with a digit; a throw is at an `h2` or `table` |
| Report.ParseNodes | js/script.js:181-201 | the reduce from no games yields one game per game-starting `h1`, or throws at an `h2` or `table` node |
| Report.Fold | js/script.js:181-201 | the reduce never removes a game, and a throw is reported at one of the nodes folded |
| Report.StartsGame | js/script.js:183 | only an `h1` starts a game, and every `h1` shorter than the shortest boilerplate title ("Your Rights") starts one |
| Report.Step | js/script.js:182-198 | one reducer call throws exactly when an `h2` or `table` meets no current game; it adds a game only for a game-starting `h1`, and that game is empty and titled with the heading's text |
| Report.ParseMirrorsHeadings | js/script.js:181-201 | a successful parse has one game per game-starting `h1`, titled with its text, in order; the category names are the `h2` texts, in order |
| Report.FoldViews | js/script.js:181-201 | from any starting list, the fold appends exactly the game headings to the titles and the `h2` texts to the category names |
| Report.StepViews | js/script.js:182-198 | one reducer call adds the started game's title or the `h2`'s name, and nothing else |
| Report.ParseFailsExactlyWithoutGame | js/script.js:186-189 | the parse throws if and only if some `h2` or `table` precedes every game-starting `h1`; it throws at the first node that is not an ignored `h1` |
| Report.FoldFromEmpty | js/script.js:181-201 | from no games, the fold fails exactly when a non-`h1` precedes every game heading, and yields no games exactly when every node is an ignored `h1` |
| Report.FoldFromEmptyFails | js/script.js:181-201 | from no games, the fold fails if and only if some `h2` or `table` precedes every game heading |
| Report.FoldFromEmptyErrorAt | js/script.js:186-189 | a failure from no games is reported at an `h2` or `table` that only ignored `h1`s precede |
| Report.FoldFromEmptyNoGames | js/script.js:170-185 | from no games, the fold yields no games if and only if every node is an ignored `h1` |
| Report.FoldWithGameSucceeds | js/script.js:181-201 | once a game exists the fold cannot fail and its result is never empty |
| Report.NoGameHeadingNoGames | js/script.js:183-185 | with no game-starting `h1` there are no games, and the parse succeeds exactly when every node is an `h1` |
| Report.IgnoredHeadingIsNoOp | js/script.js:170-183 | inserting a boilerplate `h1` anywhere changes neither the outcome nor the games |
| Report.ParseH2AppendsCategory | js/script.js:186-187 | an `h2` appends one empty category to the current game and changes nothing else; with no game it throws at that node |
| Report.ParseTableAppendsRows | js/script.js:188-196 | a table appends its rows in order to the current game's last category and changes nothing else; with no category it is dropped; with no game it throws |
| Report.FoldAppend | js/script.js:181-201 | folding `a + b` is folding `a` and then `b` from where `a` ended; a failure in `a` stops the fold |
| Report.ParseSnoc | js/script.js:181-201 | parsing one more node is one more reducer call on the games parsed so far |
| Report.CategoryNamesWithLast | js/script.js:187 | replacing the current game replaces only its share of the category-name list |
| Report.MatchAtSound | js/script.js:167 | whatever `MatchAt` captures is a match of `Report ID:\s*(\d+)` at that position |
| Report.MatchAtComplete | js/script.js:167 | every match of the pattern at a position captures what `MatchAt` returns |
| Report.MatchAtIsPattern | js/script.js:167 | `MatchAt` returns `d` if and only if the pattern matches there capturing `d` |
| Report.MatchAt | js/script.js:167 | a capture is a non-empty run of decimal digits |
| Report.FirstMatch | js/script.js:167 | the capture returned is the one at the leftmost matching position |
| Report.ReportId | js/script.js:167 | the id is "Unknown Report ID" if and only if there is no paragraph or no match; otherwise it is the digits of the leftmost match |
| ColdWar.Cell | js/transformGames/ColdWar.js:27-58 | destructuring a row by position gives a cell exactly when the row reaches that column, and then that cell |
| ColdWar.CellInt | js/transformGames/ColdWar.js:61-66 | `parseInt(cell) \|\| 0` is 0 past the end of the row, and a non-zero reading is what `parseInt` read from that cell |
| ColdWar.MatchOf | js/transformGames/ColdWar.js:78-92 | the record pushed for a row carries the same kills, deaths, assists, headshots and damage the totals add, so all zero for a blank reading; multikills are not recorded |
| ColdWar.Latest | js/transformGames/ColdWar.js:69-75 | `parseInt(x) \|\| previous` is the reading or the previous value; a non-zero reading wins, and the result is 0 only when both are 0 |
| ColdWar.LatestLifetime | js/transformGames/ColdWar.js:69-75 | an all-zero row leaves the lifetime snapshot unchanged, and the zero snapshot takes the row's reading |
| ColdWar.LatestLifetimeIdempotent | js/transformGames/ColdWar.js:69-75 | applying the same row's lifetime update twice is applying it once |
| ColdWar.DropHeader | js/script.js:44 | `slice(1)` keeps every row but the first, in order; with the first row put back it is the original data |
| ColdWar.Read | js/transformGames/ColdWar.js:27-58 | a row too short to reach the kills column reads as all zero; one too short for the lifetime columns carries no lifetime snapshot |
| ColdWar.Accumulate | js/transformGames/ColdWar.js:60-92 | one row appends exactly one match record and keeps the earlier ones; an all-zero reading changes no total or lifetime field |
| ColdWar.ProcessRows | js/transformGames/ColdWar.js:22-92 | the row loop of one category adds one match record per row after the header |
| ColdWar.ProcessCategories | js/transformGames/ColdWar.js:21-92 | the category loop adds one match record per non-header row of every category |
| ColdWar.TransformColdWar | js/transformGames/ColdWar.js:1-96 | each total is the sum of its column over all non-header rows; each lifetime field is the last non-zero value of its column (0 if none); there is one match record per non-header row, in order |
| ColdWar.FoldFromInitial | js/transformGames/ColdWar.js:60-92 | folding readings from the zero summary gives the column sums, the last non-zero lifetime values and the match records in order |
| ColdWar.FoldOfRows | js/transformGames/ColdWar.js:27-92 | the same, stated against the raw rows' columns |
| ColdWar.TotalIsSum | js/transformGames/ColdWar.js:61-66 | after any rows, each total is its start value plus the sum of its column |
| ColdWar.LifetimeAfter | js/transformGames/ColdWar.js:69-75 | after any rows, a lifetime field is unchanged if its column is all zero, and otherwise is the column's last non-zero value |
| ColdWar.AccumulateAllMatches | js/transformGames/ColdWar.js:78-92 | the match records are appended one per row, in row order |
| ColdWar.AccumulateAllAppend | js/transformGames/ColdWar.js:21-22 | processing `a + b` is processing `a` then `b` |
| ColdWar.ProcessCategoriesFlattens | js/transformGames/ColdWar.js:21-24 | the nested loops over categories and rows equal one fold over the non-header rows of all categories |
| ColdWar.ProcessRowsSkipsHeader | js/transformGames/ColdWar.js:22-24 | a category's loop processes exactly its rows after the first |
| ColdWar.DataRowsCount | js/transformGames/ColdWar.js:21-24 | the number of non-header rows is the sum over categories of `max(rows - 1, 0)` |
| ColdWar.ReadTotal | js/transformGames/ColdWar.js:27-66 | destructuring by position reads each total from its column |
| ColdWar.ReadLifetime | js/transformGames/ColdWar.js:27-75 | destructuring by position reads each lifetime field from its column |
| ColdWar.LatestIsParseOr | js/transformGames/ColdWar.js:69-75 | the update from the once-read cell is exactly `parseInt(cell) \|\| previous` |
| ColdWar.LifetimeNeverResets | js/transformGames/ColdWar.js:69-75 | once a lifetime field is non-zero, no later row sets it back to 0 |
| ColdWar.LifetimeSurvivesLaterCategories | js/transformGames/ColdWar.js:21-75 | categories appended to a game never zero a lifetime field that was non-zero |
| ColdWar.TotalsAgreeWithMatches | js/transformGames/ColdWar.js:61-92 | the kills, deaths, assists, headshots and damage totals each equal the sum of that field over the match records |
| ColdWar.HeaderRowIgnored | js/transformGames/ColdWar.js:22-24 | whatever a category's first row holds, the summary is the same |
| ColdWar.NoDataRowsEmptySummary | js/transformGames/ColdWar.js:2-19 | with no rows beyond the headers, every total and lifetime field is 0 and there are no matches |
| ColdWar.ShortRowRecord | js/transformGames/ColdWar.js:27-92 | the record of a row too short to reach the kills column keeps its text cells as far as the row goes and has every number 0 |
| ColdWar.BlankAddsOnlyMatch | js/transformGames/ColdWar.js:60-92 | a blank row only appends its match record |
| ColdWar.ShortRowCountsNothing | js/transformGames/ColdWar.js:27-92 | a category holding one short row adds a zero match record and changes no total or lifetime field |
| Registry.ModuleKey | js/script.js:209 | the module name tried for a title has no white space and is no longer than the title |
| Registry.Apply | js/script.js:210 | `transformModule.default(game)` returns a summary, never the raw game, with one match record per non-header row |
| Registry.TransformGame | js/script.js:207-215 | the game is transformed if and only if its module key is registered; otherwise it comes back unchanged |
| Registry.TransformAll | js/script.js:240-244 | the loop yields one result per game, in order, each that game's dispatch; it equals `TransformedGames`, the value the rest of the pipeline uses |
| Registry.TransformedGames | js/script.js:240-244 | the transformed list has one entry per game, and entry `k` is game `k`'s dispatch |
| Registry.ShippedDispatch | js/script.js:209-213 | with the shipped modules matched on the exact key, a game is summarised if and only if its title without white space is `ColdWar`; every other game passes through unchanged |
| Registry.DispatchIgnoresSpacing | js/script.js:209 | titles that agree once white space is removed dispatch identically |
| Registry.ColdWarIgnoresTitle | js/transformGames/ColdWar.js:1-96 | the Cold War summary does not depend on the title |
| Registry.ModuleKeyStable | js/script.js:209 | a module key is its own key |
| Registry.ForeignCharacterPassesThrough | js/script.js:209-213 | a title containing a non-space character absent from `ColdWar` passes through raw |
| Registry.FullTitlePassesThrough | js/script.js:209-213 | "Call of Duty: Black Ops Cold War" passes through raw |
| Registry.WarzonePassesThrough | js/script.js:211-213 | "Warzone" has no module and comes back as the same game |
| Registry.ColdWarKey | js/script.js:209 | the key of "Cold War" is `ColdWar` |
| Registry.ColdWarTitleIsSummarised | js/script.js:209-210 | a game titled "Cold War" is summarised |
| DailyKills.IsColdWarTitle | js/script.js:24 | the find callback `title.toLowerCase().includes('cold war')` only holds for titles at least eight characters long |
| DailyKills.ColdWarTitleIgnoresCase | js/script.js:24 | the callback ignores ASCII case: a title matches exactly when its lower-cased form does |
| DailyKills.ColdWarTitleWithin | js/script.js:24 | a matching title still matches with any text before or after it |
| DailyKills.FindColdWar | js/script.js:24 | over the transformed games, the search returns the first raw game whose title contains "cold war" in any case. It throws at the first summary met before such a game, and finds nothing exactly when every game is raw and unrelated |
| DailyKills.FindParsed | js/script.js:24 | over the parsed games, the search returns the first game whose title contains "cold war", and none exactly when no title does |
| DailyKills.RawSelectionAgrees | js/script.js:24 | on untransformed games both searches agree |
| DailyKills.FindCategory | js/script.js:33-35 | the category returned is the first named "Multiplayer Match Data (reverse chronological)"; none exactly when no category has that name |
| DailyKills.DayKey | js/script.js:49 | a row has a day exactly when it has a timestamp cell that is a valid date |
| DailyKills.FirstSeen | js/script.js:47-59 | there are no more labels than rows, and the first label is the first row's day |
| DailyKills.KillsOn | js/script.js:47-56 | a day's total over kills that are never negative is never negative |
| DailyKills.DayKeys | js/script.js:48-49 | every row gets its day, in order; otherwise the error names the first row whose timestamp is missing or invalid |
| DailyKills.FirstSeenMembers | js/script.js:52-59 | a day is a label if and only if some row falls on it |
| DailyKills.FirstSeenDistinct | js/script.js:52-59 | no day is labelled twice |
| DailyKills.FirstSeenOrdered | js/script.js:48-59 | labels appear in the order their days are first met in the rows |
| DailyKills.DailyTotalsConserve | js/script.js:47-56 | the daily values add up to the kills of all rows: none lost, none counted twice |
| DailyKills.KillsOnAbsent | js/script.js:52-55 | a day no row falls on has no kills |
| DailyKills.AggregateByDay | js/script.js:47-60 | the object's keys are the distinct days in first-seen order; each value is the sum of the kills of that day's rows |
| DailyKills.ChartFor | js/script.js:33-60 | "no multiplayer data" exactly when the category is missing; the only failure is an invalid date; a chart carries the report id, distinct labels and one value per label |
| DailyKills.RenderPage | js/script.js:20-42 | "no data" exactly when every transformed game is raw and unrelated; a title failure always points at a summary |
| DailyKills.RenderPageCorrected | js/script.js:20-42 | searching the parsed games, "no data" exactly when no title contains "cold war", and no failure but an invalid date |
| DailyKills.RenderPagesAgreeOnRawGames | js/script.js:20-60 | when no game was summarised the two pages agree |
| Pipeline.Run | js/script.js:235-249 | the run fails in parsing exactly when the parse throws; a missing-title failure needs a game that was summarised |
| Pipeline.RunCorrected | js/script.js:235-249 | with the page built from the parsed games, a title is never missing: the only page failure is an invalid date |
| Pipeline.UnresolvedModulesNeverCrash | js/script.js:207-249 | if no module specifier resolves, the registry is empty, the handler as written equals the corrected one, and its only page failure is an invalid date |
| Pipeline.RunsAgreeWithoutSummaries | js/script.js:235-249 | unless some game is summarised, both runs give the same page |
| Pipeline.OneGameReportParses | js/script.js:181-203 | boilerplate `h1`, game `h1`, `h2` and table parse to one game whose one category holds the table's rows |
| Pipeline.ColdWarTitledReportCrashes | js/script.js:24 | a report whose game is titled "Cold War" makes the page throw at game 0 |
| Pipeline.ColdWarTitledReportCharted | js/script.js:24-60 | built from the parsed games, that report charts five kills on its day |
| Pipeline.ColdWarTitledGameChart | js/script.js:33-60 | the page for that game charts its one match |
| Pipeline.ColdWarTitleMatches | js/script.js:24 | "Cold War" contains "cold war" once lower-cased |
| Pipeline.OneMatchTotals | js/transformGames/ColdWar.js:61-92 | whatever its title, a game whose one match row has 5 kills and 2 deaths sums to those totals with one match record |
| Pipeline.OneMatchReportTotals | js/transformGames/ColdWar.js:61-92 | a report with one "Call of Duty: Cold War" match of 5 kills and 2 deaths summarises to those totals and one match |
| Pipeline.SameDayKillsAdd | js/script.js:47-60 | two matches on one day with 3 and 4 kills chart one label with value 7 |
| Pipeline.NegativeKillsLowerTotal | js/transformGames/ColdWar.js:61 | a kills cell "-3" makes the kills total -3 |
| Pipeline.ReadsMinusThree | js/transformGames/ColdWar.js:61 | `parseInt("-3")` is -3 |
| Pipeline.ReadsDigit | js/transformGames/ColdWar.js:61-66 | `parseInt` of a one-digit string is that digit |

## Left out

- DOM parsing (`DOMParser`, `querySelectorAll`, `textContent`, `trim`) is
  left out. The input is a `Document`: the first paragraph's text, and the
  `h1`, `h2` and `table` nodes in document order with their texts already
  trimmed.
  - `querySelectorAll('tr')` also collects the rows of a table nested inside
    a table. A `Table` node's rows are taken as given.
- User-interface plumbing is left out because it is I/O:
  - `FileReader` and the file-name checks of the upload handler;
  - `logProgress` and the loader state;
  - `window.open`, `document.write` and the Chart.js configuration.
  - The page is the `Page` datatype: the two "no data" notices, or the report
    id with the labels and values that the chart and the page title receive.
- Dates are a parameter. `new Date(…).toISOString().split('T')[0]` is the
  function parameter `dateKey`, which returns `None` for an invalid date. An
  empty row's `undefined` timestamp is an invalid date.
- Dynamic `import` is a finite map from module key to transformer, matched on
  the exact key string. URL resolution of the specifier is not modelled: it
  removes dot segments and drops a `?query` or `#fragment`, so keys such as
  `./ColdWar`, `x/../ColdWar`, `ColdWar.js?x` or `ColdWar.js#x` would also
  load `ColdWar.js`. A server whose file names ignore case is not modelled
  either: there `coldwar` (a title "cold war") would load it too. The model
  passes those games through raw.
- Registry.Shipped: assumes that the specifier `js/transformGames/${key}.js`
  resolves to `ColdWar.js` for the key `ColdWar`. The specifier starts with
  neither `./` nor `/`, so a browser without an import map treats it as a bare
  specifier and the import fails. The registry is then `map[]`, covered by
  `Pipeline.UnresolvedModulesNeverCrash`.
  - The map is matched on the exact key. URL normalisation (dot segments,
    `?query`, `#fragment`) and case-insensitive servers, which can also reach
    `ColdWar.js`, are not modelled. `Registry.ShippedDispatch`'s "if and only
    if" holds for exact-key resolution only.
  - The shipped transformer never throws, so the `catch` only ever sees a
    missing module.
- `async`/`await` is left out. Games are transformed one after another, in
  order, as the loop awaits each in turn.
- JavaScript numbers are doubles. The model uses unbounded integers, so it
  does not model the rounding of very long digit runs or of sums beyond 2^53.
- `toLowerCase` is modelled on ASCII letters only. For the test
  `includes('cold war')` this is exact: no other character lower-cases to a
  string containing a letter of "cold war" or a space.
- `Object.keys` is assumed to list the days in insertion order. This holds
  because day strings are never array indices.
- `api/createSheet.js` is not part of this model. It is a separate server
  endpoint.

## Findings

| source | as written | input that shows it | evidently intended | confidence | as-written member | corrected member |
|---|---|---|---|---|---|---|
| js/script.js:24 | The page searches the transformed games and reads `game.title.toLowerCase()` on each. A Cold War summary has no `title`, so reaching one throws. | A report whose game heading is "Cold War", when the module specifier at js/script.js:209 resolves to `ColdWar.js`: its key is `ColdWar`, the game is summarised, and the search throws at it. If the specifier does not resolve, no game is summarised and the title search never throws (an invalid date still does). | The Cold War game is picked by its title whatever its transformation, for instance by searching the parsed games. | medium when the specifier resolves, not executed | Pipeline.ColdWarTitledReportCrashes | Pipeline.RunCorrected |

=== FILE: coldwar.dfy ===
/**
 * The Cold War transformer: folds the positional 30-column match rows of
 * every stat category (the header row of each skipped) into six running
 * totals, a "last non-zero wins" lifetime snapshot and one match record per
 * row.
 */
module ColdWar {
  import opened Wrappers
  import opened Text
  import opened Report

  // Positions in the 30-column match row of the columns the transformer reads.
  const TimestampColumn := 0
  const DeviceTypeColumn := 1
  const GameTypeColumn := 2
  const MapColumn := 3
  const OperatorColumn := 4
  const KillsColumn := 5
  const AssistsColumn := 6
  const HeadshotsColumn := 7
  const MultikillsColumn := 10
  const DamageDealtColumn := 11
  const DeathsColumn := 12
  const HighestMultikillColumn := 13
  const HighestStreakColumn := 14
  const ScoreColumn := 17
  const LifetimeDeathsColumn := 19
  const LifetimeHitsColumn := 20
  const LifetimeKillsColumn := 21
  const LifetimeLossesColumn := 22
  const LifetimeScoreColumn := 24
  const LifetimeTimePlayedColumn := 26
  const LifetimeWinsColumn := 27

  /**
   * One match. A text field is `None` when the row is too short to have it.
   * (`map` is a Dafny keyword, hence `mapName`.)
   */
  datatype MatchRecord = MatchRecord(
    timestamp: Option<string>,
    deviceType: Option<string>,
    gameType: Option<string>,
    mapName: Option<string>,
    operator: Option<string>,
    kills: int,
    assists: int,
    headshots: int,
    deaths: int,
    score: int,
    highestMultikill: int,
    highestStreak: int,
    damageDealt: int)

  datatype LifetimeStats = LifetimeStats(
    lifetimeDeaths: int,
    lifetimeHits: int,
    lifetimeKills: int,
    lifetimeLosses: int,
    lifetimeScore: int,
    lifetimeTimePlayed: int,
    lifetimeWins: int)

  datatype Summary = Summary(
    totalKills: int,
    totalDeaths: int,
    totalAssists: int,
    totalHeadshots: int,
    totalMultikills: int,
    totalDamage: int,
    lifetimeStats: LifetimeStats,
    detailedMatches: seq<MatchRecord>)

  /**
   * A row destructured by position: the text cells, and every numeric cell
   * the transformer uses read once as `parseInt(cell) || 0`. `lifetime`
   * holds the row's own seven lifetime cells.
   */
  datatype RowReading = RowReading(
    timestamp: Option<string>,
    deviceType: Option<string>,
    gameType: Option<string>,
    mapName: Option<string>,
    operator: Option<string>,
    kills: int,
    assists: int,
    headshots: int,
    multikills: int,
    damageDealt: int,
    deaths: int,
    highestMultikill: int,
    highestStreak: int,
    score: int,
    lifetime: LifetimeStats)

  /** The six running totals, named so that one lemma can speak of all of them. */
  datatype Total = Kills | Deaths | Assists | Headshots | Multikills | Damage

  /** The seven lifetime fields. */
  datatype LifetimeField =
    | LifetimeDeaths | LifetimeHits | LifetimeKills | LifetimeLosses
    | LifetimeScore | LifetimeTimePlayed | LifetimeWins

  function TotalColumn(t: Total): nat {
    match t
    case Kills => KillsColumn
    case Deaths => DeathsColumn
    case Assists => AssistsColumn
    case Headshots => HeadshotsColumn
    case Multikills => MultikillsColumn
    case Damage => DamageDealtColumn
  }

  function TotalOf(s: Summary, t: Total): int {
    match t
    case Kills => s.totalKills
    case Deaths => s.totalDeaths
    case Assists => s.totalAssists
    case Headshots => s.totalHeadshots
    case Multikills => s.totalMultikills
    case Damage => s.totalDamage
  }

  /** The cell of a reading that feeds total `t`. */
  function TotalIn(r: RowReading, t: Total): int {
    match t
    case Kills => r.kills
    case Deaths => r.deaths
    case Assists => r.assists
    case Headshots => r.headshots
    case Multikills => r.multikills
    case Damage => r.damageDealt
  }

  function LifetimeColumn(f: LifetimeField): nat {
    match f
    case LifetimeDeaths => LifetimeDeathsColumn
    case LifetimeHits => LifetimeHitsColumn
    case LifetimeKills => LifetimeKillsColumn
    case LifetimeLosses => LifetimeLossesColumn
    case LifetimeScore => LifetimeScoreColumn
    case LifetimeTimePlayed => LifetimeTimePlayedColumn
    case LifetimeWins => LifetimeWinsColumn
  }

  function LifetimeOf(l: LifetimeStats, f: LifetimeField): int {
    match f
    case LifetimeDeaths => l.lifetimeDeaths
    case LifetimeHits => l.lifetimeHits
    case LifetimeKills => l.lifetimeKills
    case LifetimeLosses => l.lifetimeLosses
    case LifetimeScore => l.lifetimeScore
    case LifetimeTimePlayed => l.lifetimeTimePlayed
    case LifetimeWins => l.lifetimeWins
  }

  /** The match-record field that repeats a total's column; there is none for multikills. */
  function RecordedTotal(m: MatchRecord, t: Total): int
    requires t != Multikills
  {
    match t
    case Kills => m.kills
    case Deaths => m.deaths
    case Assists => m.assists
    case Headshots => m.headshots
    case Damage => m.damageDealt
  }

  const ZeroLifetime := LifetimeStats(0, 0, 0, 0, 0, 0, 0)

  const InitialSummary := Summary(0, 0, 0, 0, 0, 0, ZeroLifetime, [])

  // ---------------------------------------------------------------------------
  // The transformer
  // ---------------------------------------------------------------------------

  /** The cell at column `i`, or `None` (JavaScript's `undefined`) past the end of the row. */
  function Cell(row: Row, i: nat): (c: Option<string>)
    ensures c.Some? <==> i < |row|
    ensures c.Some? ==> c.value == row[i]
  {
    if i < |row| then Some(row[i]) else None
  }

  /** `parseInt(row[i]) || 0`: a column past the end of the row reads as 0. */
  function CellInt(row: Row, i: nat): (v: int)
    ensures i >= |row| ==> v == 0
    ensures v != 0 ==> ParseInt(row[i]) == Some(v)
  {
    IntOr(Cell(row, i), 0)
  }

  /** The destructuring `const [timestamp, ..., xpEnd] = row` and its `parseInt(x) || 0` reads. */
  function Read(row: Row): (r: RowReading)
    ensures |row| <= KillsColumn ==> Blank(r)
    ensures |row| <= LifetimeDeathsColumn ==> r.lifetime == ZeroLifetime
  {
    RowReading(
      Cell(row, TimestampColumn),
      Cell(row, DeviceTypeColumn),
      Cell(row, GameTypeColumn),
      Cell(row, MapColumn),
      Cell(row, OperatorColumn),
      CellInt(row, KillsColumn),
      CellInt(row, AssistsColumn),
      CellInt(row, HeadshotsColumn),
      CellInt(row, MultikillsColumn),
      CellInt(row, DamageDealtColumn),
      CellInt(row, DeathsColumn),
      CellInt(row, HighestMultikillColumn),
      CellInt(row, HighestStreakColumn),
      CellInt(row, ScoreColumn),
      LifetimeStats(
        CellInt(row, LifetimeDeathsColumn),
        CellInt(row, LifetimeHitsColumn),
        CellInt(row, LifetimeKillsColumn),
        CellInt(row, LifetimeLossesColumn),
        CellInt(row, LifetimeScoreColumn),
        CellInt(row, LifetimeTimePlayedColumn),
        CellInt(row, LifetimeWinsColumn)))
  }

  /**
   * The record pushed for a row. It carries the same readings the running
   * totals add (the code parses each of those cells twice, and both parses
   * agree); multikills are summed but not recorded.
   */
  function MatchOf(r: RowReading): (m: MatchRecord)
    ensures m.kills == r.kills && m.deaths == r.deaths && m.assists == r.assists
    ensures m.headshots == r.headshots && m.damageDealt == r.damageDealt
    ensures Blank(r) ==> m.kills == m.deaths == m.assists == m.headshots == m.damageDealt == 0
  {
    MatchRecord(
      r.timestamp, r.deviceType, r.gameType, r.mapName, r.operator,
      r.kills, r.assists, r.headshots, r.deaths, r.score,
      r.highestMultikill, r.highestStreak, r.damageDealt)
  }

  /**
   * `parseInt(cell) || previous`, given `reading == parseInt(cell) || 0`:
   * both `NaN` and `0` keep the previous value.
   */
  function Latest(previous: int, reading: int): (v: int)
    ensures v == reading || v == previous
    ensures reading != 0 ==> v == reading
    ensures v != 0 <==> previous != 0 || reading != 0
  {
    if reading != 0 then reading else previous
  }

  /**
   * One row's lifetime update: an all-zero reading keeps the snapshot, and
   * the zero snapshot takes the reading.
   */
  function LatestLifetime(l: LifetimeStats, r: LifetimeStats): (m: LifetimeStats)
    ensures r == ZeroLifetime ==> m == l
    ensures l == ZeroLifetime ==> m == r
  {
    LifetimeStats(
      Latest(l.lifetimeDeaths, r.lifetimeDeaths),
      Latest(l.lifetimeHits, r.lifetimeHits),
      Latest(l.lifetimeKills, r.lifetimeKills),
      Latest(l.lifetimeLosses, r.lifetimeLosses),
      Latest(l.lifetimeScore, r.lifetimeScore),
      Latest(l.lifetimeTimePlayed, r.lifetimeTimePlayed),
      Latest(l.lifetimeWins, r.lifetimeWins))
  }

  /** Applying the same row's lifetime reading twice is applying it once. */
  lemma LatestLifetimeIdempotent(l: LifetimeStats, r: LifetimeStats)
    ensures LatestLifetime(LatestLifetime(l, r), r) == LatestLifetime(l, r)
  {
  }

  /** The work done for one non-header row. */
  function Accumulate(s: Summary, r: RowReading): (a: Summary)
    ensures |a.detailedMatches| == |s.detailedMatches| + 1
    ensures a.detailedMatches[..|s.detailedMatches|] == s.detailedMatches
    ensures Blank(r) ==>
      && a.totalKills == s.totalKills && a.totalDeaths == s.totalDeaths
      && a.totalAssists == s.totalAssists && a.totalHeadshots == s.totalHeadshots
      && a.totalMultikills == s.totalMultikills && a.totalDamage == s.totalDamage
      && a.lifetimeStats == s.lifetimeStats
  {
    Summary(
      s.totalKills + r.kills,
      s.totalDeaths + r.deaths,
      s.totalAssists + r.assists,
      s.totalHeadshots + r.headshots,
      s.totalMultikills + r.multikills,
      s.totalDamage + r.damageDealt,
      LatestLifetime(s.lifetimeStats, r.lifetime),
      s.detailedMatches + [MatchOf(r)])
  }

  /** `category.data.forEach((row, index) => ...)`, resumed at `index`; row 0 is skipped. */
  function ProcessRows(s: Summary, data: seq<Row>, index: nat): (r: Summary)
    ensures |r.detailedMatches| == |s.detailedMatches| + (if index < |data| then |data| - (if index == 0 then 1 else index) else 0)
    decreases |data| - index
  {
    if index >= |data| then s
    else ProcessRows(if index == 0 then s else Accumulate(s, Read(data[index])), data, index + 1)
  }

  /** `game.stats.forEach(...)`. */
  function ProcessCategories(s: Summary, stats: seq<StatCategory>): (r: Summary)
    ensures |r.detailedMatches| == |s.detailedMatches| + NonHeaderRowCount(stats)
    decreases |stats|
  {
    if stats == [] then s else ProcessCategories(ProcessRows(s, stats[0].data, 0), stats[1..])
  }

  // ---------------------------------------------------------------------------
  // Reference definitions
  // ---------------------------------------------------------------------------

  /** `data.slice(1)`: every row but the first, in order. */
  function DropHeader(data: seq<Row>): (r: seq<Row>)
    ensures |r| == if data == [] then 0 else |data| - 1
    ensures forall i :: 0 <= i < |r| ==> r[i] == data[i + 1]
    ensures data != [] ==> [data[0]] + r == data
  {
    if data == [] then [] else data[1..]
  }

  /** Every non-header row, category by category, each in row order. */
  function DataRows(stats: seq<StatCategory>): seq<Row> {
    if stats == [] then [] else DropHeader(stats[0].data) + DataRows(stats[1..])
  }

  /** The sum over the categories of `max(|data| - 1, 0)`. */
  function NonHeaderRowCount(stats: seq<StatCategory>): nat {
    if stats == [] then 0
    else (if |stats[0].data| > 0 then |stats[0].data| - 1 else 0) + NonHeaderRowCount(stats[1..])
  }

  /** `parseInt(row[column]) || 0` down a sequence of rows. */
  function ColumnOf(rows: seq<Row>, column: nat): seq<int> {
    seq(|rows|, i requires 0 <= i < |rows| => CellInt(rows[i], column))
  }

  function Sum(xs: seq<int>): int {
    if xs == [] then 0 else xs[0] + Sum(xs[1..])
  }

  /** `v` is the last non-zero element of `xs`, or 0 when there is none. */
  ghost predicate IsLastNonZero(xs: seq<int>, v: int) {
    || (v == 0 && forall i :: 0 <= i < |xs| ==> xs[i] == 0)
    || (v != 0 && exists i :: (0 <= i < |xs| && xs[i] == v
          && forall j :: i < j < |xs| ==> xs[j] == 0))
  }

  function ReadAll(rows: seq<Row>): seq<RowReading> {
    seq(|rows|, i requires 0 <= i < |rows| => Read(rows[i]))
  }

  /**
   * `transformColdWarData(game)`: each total is the column sum over the
   * non-header rows, each lifetime field is the last non-zero value of its
   * column, and there is one match record per non-header row, in order.
   */
  function TransformColdWar(game: Game): (r: Summary)
    ensures forall t :: TotalOf(r, t) == Sum(ColumnOf(DataRows(game.stats), TotalColumn(t)))
    ensures forall f :: IsLastNonZero(ColumnOf(DataRows(game.stats), LifetimeColumn(f)), LifetimeOf(r.lifetimeStats, f))
    ensures |r.detailedMatches| == |DataRows(game.stats)| == NonHeaderRowCount(game.stats)
    ensures forall i :: 0 <= i < |r.detailedMatches| ==> r.detailedMatches[i] == MatchOf(Read(DataRows(game.stats)[i]))
  {
    ProcessCategoriesFlattens(InitialSummary, game.stats);
    DataRowsCount(game.stats);
    FoldOfRows(DataRows(game.stats));
    ProcessCategories(InitialSummary, game.stats)
  }

  // ---------------------------------------------------------------------------
  // The nested loops are one fold over the flattened readings
  // ---------------------------------------------------------------------------

  function AccumulateAll(s: Summary, rs: seq<RowReading>): Summary
    decreases |rs|
  {
    if rs == [] then s else AccumulateAll(Accumulate(s, rs[0]), rs[1..])
  }

  lemma {:induction false} AccumulateAllAppend(s: Summary, a: seq<RowReading>, b: seq<RowReading>)
    ensures AccumulateAll(s, a + b) == AccumulateAll(AccumulateAll(s, a), b)
    decreases |a|
  {
    if a == [] {
      assert a + b == b;
    } else {
      assert (a + b)[0] == a[0];
      assert (a + b)[1..] == a[1..] + b;
      AccumulateAllAppend(Accumulate(s, a[0]), a[1..], b);
    }
  }

  lemma ReadAllTail(rows: seq<Row>)
    requires rows != []
    ensures ReadAll(rows)[1..] == ReadAll(rows[1..])
  {
    var a := ReadAll(rows)[1..];
    var b := ReadAll(rows[1..]);
    assert |a| == |b|;
    forall i | 0 <= i < |a|
      ensures a[i] == b[i]
    {
      assert rows[1..][i] == rows[i + 1];
    }
  }

  lemma {:induction false} ProcessRowsFrom(s: Summary, data: seq<Row>, index: nat)
    requires 0 < index <= |data|
    ensures ProcessRows(s, data, index) == AccumulateAll(s, ReadAll(data[index..]))
    decreases |data| - index
  {
    var rs := ReadAll(data[index..]);
    if index < |data| {
      var next := Accumulate(s, Read(data[index]));
      assert ProcessRows(s, data, index) == ProcessRows(next, data, index + 1);
      ProcessRowsFrom(next, data, index + 1);
      assert rs[0] == Read(data[index]);
      assert data[index..][1..] == data[index + 1..];
      ReadAllTail(data[index..]);
      assert AccumulateAll(s, rs) == AccumulateAll(next, rs[1..]);
    } else {
      assert rs == [];
    }
  }

  lemma {:induction false} ProcessRowsSkipsHeader(s: Summary, data: seq<Row>)
    ensures ProcessRows(s, data, 0) == AccumulateAll(s, ReadAll(DropHeader(data)))
  {
    if data != [] {
      ProcessRowsFrom(s, data, 1);
    } else {
      assert ReadAll(DropHeader(data)) == [];
    }
  }

  lemma ReadAllAppend(a: seq<Row>, b: seq<Row>)
    ensures ReadAll(a + b) == ReadAll(a) + ReadAll(b)
  {
    forall i | 0 <= i < |a + b|
      ensures ReadAll(a + b)[i] == (ReadAll(a) + ReadAll(b))[i]
    {
      if i < |a| {
        assert (a + b)[i] == a[i];
      } else {
        assert (a + b)[i] == b[i - |a|];
      }
    }
  }

  lemma {:induction false} ProcessCategoriesFlattens(s: Summary, stats: seq<StatCategory>)
    ensures ProcessCategories(s, stats) == AccumulateAll(s, ReadAll(DataRows(stats)))
    decreases |stats|
  {
    if stats != [] {
      ProcessRowsSkipsHeader(s, stats[0].data);
      ProcessCategoriesFlattens(ProcessRows(s, stats[0].data, 0), stats[1..]);
      ReadAllAppend(DropHeader(stats[0].data), DataRows(stats[1..]));
      AccumulateAllAppend(s, ReadAll(DropHeader(stats[0].data)), ReadAll(DataRows(stats[1..])));
    } else {
      assert ReadAll(DataRows(stats)) == [];
    }
  }

  lemma {:induction false} DataRowsCount(stats: seq<StatCategory>)
    ensures |DataRows(stats)| == NonHeaderRowCount(stats)
    decreases |stats|
  {
    if stats != [] {
      DataRowsCount(stats[1..]);
    }
  }

  lemma {:induction false} DataRowsAppend(a: seq<StatCategory>, b: seq<StatCategory>)
    ensures DataRows(a + b) == DataRows(a) + DataRows(b)
    decreases |a|
  {
    if a == [] {
      assert a + b == b;
    } else {
      assert (a + b)[0] == a[0];
      assert (a + b)[1..] == a[1..] + b;
      DataRowsAppend(a[1..], b);
    }
  }

  function TotalsIn(rs: seq<RowReading>, t: Total): seq<int> {
    seq(|rs|, i requires 0 <= i < |rs| => TotalIn(rs[i], t))
  }

  function LifetimesIn(rs: seq<RowReading>, f: LifetimeField): seq<int> {
    seq(|rs|, i requires 0 <= i < |rs| => LifetimeOf(rs[i].lifetime, f))
  }

  function MatchesOf(rs: seq<RowReading>): seq<MatchRecord> {
    seq(|rs|, i requires 0 <= i < |rs| => MatchOf(rs[i]))
  }

  lemma {:induction false} TotalIsSum(s: Summary, rs: seq<RowReading>, t: Total)
    ensures TotalOf(AccumulateAll(s, rs), t) == TotalOf(s, t) + Sum(TotalsIn(rs, t))
    decreases |rs|
  {
    if rs != [] {
      TotalIsSum(Accumulate(s, rs[0]), rs[1..], t);
      assert TotalsIn(rs, t)[1..] == TotalsIn(rs[1..], t);
    } else {
      assert TotalsIn(rs, t) == [];
    }
  }

  lemma {:induction false} AccumulateAllMatches(s: Summary, rs: seq<RowReading>)
    ensures AccumulateAll(s, rs).detailedMatches == s.detailedMatches + MatchesOf(rs)
    decreases |rs|
  {
    if rs == [] {
      assert s.detailedMatches + MatchesOf(rs) == s.detailedMatches;
    } else {
      var s' := Accumulate(s, rs[0]);
      AccumulateAllMatches(s', rs[1..]);
      assert MatchesOf(rs) == [MatchOf(rs[0])] + MatchesOf(rs[1..]);
      assert s.detailedMatches + [MatchOf(rs[0])] + MatchesOf(rs[1..])
          == s.detailedMatches + MatchesOf(rs);
    }
  }

  lemma LatestLifetimeOf(l: LifetimeStats, r: LifetimeStats, f: LifetimeField)
    ensures LifetimeOf(LatestLifetime(l, r), f) == Latest(LifetimeOf(l, f), LifetimeOf(r, f))
  {
  }

  lemma {:induction false} LifetimeAfter(s: Summary, rs: seq<RowReading>, f: LifetimeField)
    ensures var xs := LifetimesIn(rs, f);
      var v := LifetimeOf(AccumulateAll(s, rs).lifetimeStats, f);
      || (v == LifetimeOf(s.lifetimeStats, f) && forall i :: 0 <= i < |xs| ==> xs[i] == 0)
      || (v != 0 && exists i :: (0 <= i < |xs| && xs[i] == v
            && forall j :: i < j < |xs| ==> xs[j] == 0))
    decreases |rs|
  {
    var xs := LifetimesIn(rs, f);
    if rs != [] {
      var s' := Accumulate(s, rs[0]);
      var rest := LifetimesIn(rs[1..], f);
      assert forall i :: 0 <= i < |rest| ==> rest[i] == xs[i + 1];
      LifetimeAfter(s', rs[1..], f);
      var v := LifetimeOf(AccumulateAll(s, rs).lifetimeStats, f);
      LatestLifetimeOf(s.lifetimeStats, rs[0].lifetime, f);
      assert LifetimeOf(s'.lifetimeStats, f) == Latest(LifetimeOf(s.lifetimeStats, f), xs[0]);
      if v == LifetimeOf(s'.lifetimeStats, f) && forall i :: 0 <= i < |rest| ==> rest[i] == 0 {
        if xs[0] != 0 {
          assert xs[0] == v;
          forall j | 0 < j < |xs| ensures xs[j] == 0 {
            assert xs[j] == rest[j - 1];
          }
        } else {
          assert forall j :: 0 <= j < |xs| ==> xs[j] == 0 by {
            forall j | 0 < j < |xs| ensures xs[j] == 0 {
              assert xs[j] == rest[j - 1];
            }
          }
        }
      } else {
        var i :| 0 <= i < |rest| && rest[i] == v && forall j :: i < j < |rest| ==> rest[j] == 0;
        assert xs[i + 1] == v;
        forall j | i + 1 < j < |xs| ensures xs[j] == 0 {
          assert xs[j] == rest[j - 1];
        }
      }
    }
  }

  /** Reading a row and taking the cell behind a total is reading that total's column. */
  lemma ReadTotal(row: Row, t: Total)
    ensures TotalIn(Read(row), t) == CellInt(row, TotalColumn(t))
  {
  }

  /** Likewise for the lifetime cells. */
  lemma ReadLifetime(row: Row, f: LifetimeField)
    ensures LifetimeOf(Read(row).lifetime, f) == CellInt(row, LifetimeColumn(f))
  {
  }

  lemma ReadAllTotals(rows: seq<Row>, t: Total)
    ensures TotalsIn(ReadAll(rows), t) == ColumnOf(rows, TotalColumn(t))
  {
    forall i | 0 <= i < |rows|
      ensures TotalsIn(ReadAll(rows), t)[i] == ColumnOf(rows, TotalColumn(t))[i]
    {
      ReadTotal(rows[i], t);
    }
  }

  lemma ReadAllLifetimes(rows: seq<Row>, f: LifetimeField)
    ensures LifetimesIn(ReadAll(rows), f) == ColumnOf(rows, LifetimeColumn(f))
  {
    forall i | 0 <= i < |rows|
      ensures LifetimesIn(ReadAll(rows), f)[i] == ColumnOf(rows, LifetimeColumn(f))[i]
    {
      ReadLifetime(rows[i], f);
    }
  }

  /** The flattened fold from the zero summary, over readings. */
  lemma FoldFromInitial(rs: seq<RowReading>)
    ensures var r := AccumulateAll(InitialSummary, rs);
      && (forall t :: TotalOf(r, t) == Sum(TotalsIn(rs, t)))
      && (forall f :: IsLastNonZero(LifetimesIn(rs, f), LifetimeOf(r.lifetimeStats, f)))
      && r.detailedMatches == MatchesOf(rs)
  {
    var r := AccumulateAll(InitialSummary, rs);
    forall t
      ensures TotalOf(r, t) == Sum(TotalsIn(rs, t))
    {
      TotalIsSum(InitialSummary, rs, t);
    }
    forall f
      ensures IsLastNonZero(LifetimesIn(rs, f), LifetimeOf(r.lifetimeStats, f))
    {
      LifetimeAfter(InitialSummary, rs, f);
    }
    AccumulateAllMatches(InitialSummary, rs);
  }

  /** The same fold over rows, stated against the rows' columns. */
  lemma FoldOfRows(rows: seq<Row>)
    ensures var r := AccumulateAll(InitialSummary, ReadAll(rows));
      && (forall t :: TotalOf(r, t) == Sum(ColumnOf(rows, TotalColumn(t))))
      && (forall f :: IsLastNonZero(ColumnOf(rows, LifetimeColumn(f)), LifetimeOf(r.lifetimeStats, f)))
      && r.detailedMatches == MatchesOf(ReadAll(rows))
  {
    FoldFromInitial(ReadAll(rows));
    forall t
      ensures TotalsIn(ReadAll(rows), t) == ColumnOf(rows, TotalColumn(t))
    {
      ReadAllTotals(rows, t);
    }
    forall f
      ensures LifetimesIn(ReadAll(rows), f) == ColumnOf(rows, LifetimeColumn(f))
    {
      ReadAllLifetimes(rows, f);
    }
  }

  // ---------------------------------------------------------------------------
  // Properties
  // ---------------------------------------------------------------------------

  /**
   * Feeding `Latest` the `parseInt(cell) || 0` reading gives exactly
   * `parseInt(cell) || previous`, the transformer's lifetime update.
   */
  lemma LatestIsParseOr(previous: int, row: Row, column: nat)
    ensures Latest(previous, CellInt(row, column)) == IntOr(Cell(row, column), previous)
  {
  }

  /** Once a lifetime field holds a non-zero value, no later row resets it to 0. */
  lemma {:induction false} LifetimeNeverResets(s: Summary, rs: seq<RowReading>, f: LifetimeField)
    requires LifetimeOf(s.lifetimeStats, f) != 0
    ensures LifetimeOf(AccumulateAll(s, rs).lifetimeStats, f) != 0
    decreases |rs|
  {
    if rs != [] {
      LatestLifetimeOf(s.lifetimeStats, rs[0].lifetime, f);
      LifetimeNeverResets(Accumulate(s, rs[0]), rs[1..], f);
    }
  }

  /** The same for a whole game: categories appended after it never zero a lifetime field. */
  lemma LifetimeSurvivesLaterCategories(game: Game, more: seq<StatCategory>, f: LifetimeField)
    requires LifetimeOf(TransformColdWar(game).lifetimeStats, f) != 0
    ensures LifetimeOf(TransformColdWar(game.(stats := game.stats + more)).lifetimeStats, f) != 0
  {
    var a := ReadAll(DataRows(game.stats));
    var b := ReadAll(DataRows(more));
    ProcessCategoriesFlattens(InitialSummary, game.stats);
    ProcessCategoriesFlattens(InitialSummary, game.stats + more);
    DataRowsAppend(game.stats, more);
    ReadAllAppend(DataRows(game.stats), DataRows(more));
    AccumulateAllAppend(InitialSummary, a, b);
    LifetimeNeverResets(AccumulateAll(InitialSummary, a), b, f);
  }

  function RecordedColumn(ms: seq<MatchRecord>, t: Total): seq<int>
    requires t != Multikills
  {
    seq(|ms|, i requires 0 <= i < |ms| => RecordedTotal(ms[i], t))
  }

  /**
   * Kills, deaths, assists, headshots and damage totals each equal the sum
   * of the matching field over the match records.
   */
  lemma TotalsAgreeWithMatches(game: Game, t: Total)
    requires t != Multikills
    ensures TotalOf(TransformColdWar(game), t) == Sum(RecordedColumn(TransformColdWar(game).detailedMatches, t))
  {
    var rows := DataRows(game.stats);
    var ms := TransformColdWar(game).detailedMatches;
    forall i | 0 <= i < |rows|
      ensures RecordedColumn(ms, t)[i] == ColumnOf(rows, TotalColumn(t))[i]
    {
      ReadTotal(rows[i], t);
    }
    assert RecordedColumn(ms, t) == ColumnOf(rows, TotalColumn(t));
  }

  /** The game with the first row of category `k` replaced by `header`. */
  function WithHeader(game: Game, k: nat, header: Row): Game
    requires k < |game.stats| && |game.stats[k].data| > 0
  {
    var c := game.stats[k];
    game.(stats := game.stats[k := c.(data := [header] + c.data[1..])])
  }

  lemma {:induction false} DataRowsIgnoreHeader(stats: seq<StatCategory>, k: nat, header: Row)
    requires k < |stats| && |stats[k].data| > 0
    ensures DataRows(stats[k := stats[k].(data := [header] + stats[k].data[1..])]) == DataRows(stats)
    decreases k
  {
    var stats' := stats[k := stats[k].(data := [header] + stats[k].data[1..])];
    if k == 0 {
      assert stats'[1..] == stats[1..];
      assert ([header] + stats[0].data[1..])[1..] == stats[0].data[1..];
    } else {
      DataRowsIgnoreHeader(stats[1..], k - 1, header);
      assert stats'[1..] == stats[1..][k - 1 := stats[k].(data := [header] + stats[k].data[1..])];
    }
  }

  /** Row 0 of every category is skipped: what it holds changes nothing in the summary. */
  lemma HeaderRowIgnored(game: Game, k: nat, header: Row)
    requires k < |game.stats| && |game.stats[k].data| > 0
    ensures TransformColdWar(WithHeader(game, k, header)) == TransformColdWar(game)
  {
    DataRowsIgnoreHeader(game.stats, k, header);
    ProcessCategoriesFlattens(InitialSummary, game.stats);
    ProcessCategoriesFlattens(InitialSummary, WithHeader(game, k, header).stats);
  }

  lemma {:induction false} NoDataRows(stats: seq<StatCategory>)
    requires forall k :: 0 <= k < |stats| ==> |stats[k].data| <= 1
    ensures DataRows(stats) == []
    decreases |stats|
  {
    if stats != [] {
      NoDataRows(stats[1..]);
    }
  }

  /** With no category, or only header rows, every total and lifetime field is 0 and there are no matches. */
  lemma NoDataRowsEmptySummary(game: Game)
    requires forall k :: 0 <= k < |game.stats| ==> |game.stats[k].data| <= 1
    ensures forall t :: TotalOf(TransformColdWar(game), t) == 0
    ensures forall f :: LifetimeOf(TransformColdWar(game).lifetimeStats, f) == 0
    ensures TransformColdWar(game).detailedMatches == []
  {
    NoDataRows(game.stats);
    ProcessCategoriesFlattens(InitialSummary, game.stats);
    assert ReadAll(DataRows(game.stats)) == [];
  }

  /** A reading whose totals and lifetime cells are all 0. */
  predicate Blank(r: RowReading) {
    && r.kills == 0 && r.deaths == 0 && r.assists == 0
    && r.headshots == 0 && r.multikills == 0 && r.damageDealt == 0
    && r.lifetime == ZeroLifetime
  }

  /**
   * The record of a row too short to reach the kills column: its text cells
   * as far as the row goes, and every number 0 (each cell reads as
   * `undefined`, so `NaN`).
   */
  lemma ShortRowRecord(row: Row)
    requires |row| <= KillsColumn
    ensures MatchOf(Read(row)) == MatchRecord(
      Cell(row, TimestampColumn), Cell(row, DeviceTypeColumn), Cell(row, GameTypeColumn),
      Cell(row, MapColumn), Cell(row, OperatorColumn), 0, 0, 0, 0, 0, 0, 0, 0)
  {
  }

  /** A blank reading only appends its match record. */
  lemma {:induction false} BlankAddsOnlyMatch(s: Summary, rs: seq<RowReading>, z: RowReading)
    requires Blank(z)
    ensures var before := AccumulateAll(s, rs);
      var after := AccumulateAll(s, rs + [z]);
      && (forall t :: TotalOf(after, t) == TotalOf(before, t))
      && after.lifetimeStats == before.lifetimeStats
      && after.detailedMatches == before.detailedMatches + [MatchOf(z)]
  {
    AccumulateAllAppend(s, rs, [z]);
    var before := AccumulateAll(s, rs);
    assert AccumulateAll(before, [z]) == Accumulate(before, z);
  }

  /**
   * A row too short to reach the kills column (every numeric cell reads as
   * `undefined`, so `NaN`) adds a match record of zeros and changes no total
   * and no lifetime field.
   */
  lemma ShortRowCountsNothing(game: Game, name: string, header: Row, row: Row)
    requires |row| <= KillsColumn
    ensures var before := TransformColdWar(game);
      var after := TransformColdWar(game.(stats := game.stats + [StatCategory(name, [header, row])]));
      && (forall t :: TotalOf(after, t) == TotalOf(before, t))
      && after.lifetimeStats == before.lifetimeStats
      && after.detailedMatches == before.detailedMatches + [MatchOf(Read(row))]
      && MatchOf(Read(row)).kills == MatchOf(Read(row)).deaths == MatchOf(Read(row)).damageDealt == 0
  {
    var more := [StatCategory(name, [header, row])];
    assert DataRows(more) == [row] by {
      assert DataRows(more[1..]) == [];
    }
    var a := ReadAll(DataRows(game.stats));
    DataRowsAppend(game.stats, more);
    ReadAllAppend(DataRows(game.stats), [row]);
    assert ReadAll([row]) == [Read(row)];
    ProcessCategoriesFlattens(InitialSummary, game.stats);
    ProcessCategoriesFlattens(InitialSummary, game.stats + more);
    ShortRowRecord(row);
    BlankAddsOnlyMatch(InitialSummary, a, Read(row));
  }
}

=== FILE: daily.dfy ===
/**
 * `generateTemporaryPage`: picks the first game whose title contains
 * "cold war" in any case, takes its category named
 * "Multiplayer Match Data (reverse chronological)", drops that table's header
 * row and sums the kills column per UTC calendar day, the days in the order
 * they are first met. The chart receives the days as labels and the sums as
 * values.
 */
module DailyKills {
  import opened Wrappers
  import opened Text
  import opened Report
  import opened ColdWar
  import opened Registry

  const ColdWarNeedle := "cold war"

  const MultiplayerCategory := "Multiplayer Match Data (reverse chronological)"

  /** The exceptions the page script can throw. */
  datatype PageError =
    | TitleUndefined(index: nat)  // `title.toLowerCase()` on the title-less element `index`
    | InvalidDate(row: nat)       // `toISOString()` on an invalid date, at data row `row`

  /** What the new window shows. */
  datatype Page =
    | NoColdWarData
    | NoMultiplayerData
    | Chart(reportId: string, labels: seq<string>, values: seq<int>)

  /** `title.toLowerCase().includes('cold war')`: only a title at least as long as the needle can match. */
  function IsColdWarTitle(title: string): (b: bool)
    ensures b ==> |title| >= |ColdWarNeedle|
  {
    Contains(LowerAscii(title), ColdWarNeedle)
  }

  /** The test ignores case: a title matches exactly when its lower-cased form does. */
  lemma ColdWarTitleIgnoresCase(title: string)
    ensures IsColdWarTitle(LowerAscii(title)) == IsColdWarTitle(title)
  {
    LowerAsciiIdempotent(title);
  }

  /** A matching title still matches with any text around it. */
  lemma ColdWarTitleWithin(a: string, title: string, c: string)
    requires IsColdWarTitle(title)
    ensures IsColdWarTitle(a + title + c)
  {
    LowerAsciiAppend(a + title, c);
    LowerAsciiAppend(a, title);
    ContainsWithin(LowerAscii(a), LowerAscii(title), LowerAscii(c), ColdWarNeedle);
  }

  // ---------------------------------------------------------------------------
  // Picking the game
  // ---------------------------------------------------------------------------

  /** `find` reads element `k`'s title and moves on: it has one, and not a Cold War one. */
  predicate PassedOver(games: seq<Transformed>, k: nat)
    requires k < |games|
  {
    games[k].Raw? && !IsColdWarTitle(games[k].game.title)
  }

  /**
   * `games.find(game => game.title.toLowerCase().includes('cold war'))` over
   * the transformed games, from element `from` on. A summary has no `title`,
   * so reaching one throws.
   */
  function FindColdWar(games: seq<Transformed>, from: nat): (r: Result<Option<Game>, PageError>)
    requires from <= |games|
    ensures r == Success(None) <==> forall k :: from <= k < |games| ==> PassedOver(games, k)
    ensures r.Success? && r.value.Some? ==>
      exists k :: (from <= k < |games| && games[k] == Raw(r.value.value) && IsColdWarTitle(r.value.value.title)
        && forall j :: from <= j < k ==> PassedOver(games, j))
    ensures r.Failure? ==>
      && r.error.TitleUndefined?
      && from <= r.error.index < |games|
      && games[r.error.index].ColdWarSummary?
      && forall j :: from <= j < r.error.index ==> PassedOver(games, j)
    decreases |games| - from
  {
    if from == |games| then Success(None)
    else
      match games[from]
      case ColdWarSummary(_) =>
        assert !PassedOver(games, from);
        Failure(TitleUndefined(from))
      case Raw(g) =>
        if IsColdWarTitle(g.title) then
          assert !PassedOver(games, from);
          Success(Some(g))
        else
          assert PassedOver(games, from);
          FindColdWar(games, from + 1)
  }

  /** The same search over the parsed games, where every element has a title. */
  function FindParsed(games: seq<Game>): (r: Option<Game>)
    ensures r.None? <==> forall k :: 0 <= k < |games| ==> !IsColdWarTitle(games[k].title)
    ensures r.Some? ==>
      exists k :: (0 <= k < |games| && games[k] == r.value && IsColdWarTitle(r.value.title)
        && forall j :: 0 <= j < k ==> !IsColdWarTitle(games[j].title))
  {
    if games == [] then None
    else if IsColdWarTitle(games[0].title) then Some(games[0])
    else
      var r := FindParsed(games[1..]);
      assert r.Some? ==> exists k :: (0 <= k < |games| && games[k] == r.value && IsColdWarTitle(r.value.title)
        && forall j :: 0 <= j < k ==> !IsColdWarTitle(games[j].title)) by {
        if r.Some? {
          var k :| 0 <= k < |games[1..]| && games[1..][k] == r.value && IsColdWarTitle(r.value.title)
            && forall j :: 0 <= j < k ==> !IsColdWarTitle(games[1..][j].title);
          assert games[k + 1] == r.value;
          forall j | 0 <= j < k + 1 ensures !IsColdWarTitle(games[j].title) {
            if j > 0 {
              assert games[j] == games[1..][j - 1];
            }
          }
        }
      }
      assert r.None? ==> forall k :: 0 <= k < |games| ==> !IsColdWarTitle(games[k].title) by {
        if r.None? {
          forall k | 0 < k < |games| ensures !IsColdWarTitle(games[k].title) {
            assert games[k] == games[1..][k - 1];
          }
        }
      }
      r
  }

  /** On games that all kept their titles, the search as written is the search over the parsed games. */
  lemma {:induction false} RawSelectionAgrees(games: seq<Game>, from: nat)
    requires from <= |games|
    ensures FindColdWar(seq(|games|, k requires 0 <= k < |games| => Raw(games[k])), from) == Success(FindParsed(games[from..]))
    decreases |games| - from
  {
    var ts := seq(|games|, k requires 0 <= k < |games| => Raw(games[k]));
    if from < |games| {
      RawSelectionAgrees(games, from + 1);
      assert games[from..][0] == games[from];
      assert games[from..][1..] == games[from + 1..];
    } else {
      assert games[from..] == [];
    }
  }

  /** The first category named "Multiplayer Match Data (reverse chronological)". */
  function FindCategory(stats: seq<StatCategory>): (r: Option<StatCategory>)
    ensures r.None? <==> forall k :: 0 <= k < |stats| ==> stats[k].category != MultiplayerCategory
    ensures r.Some? ==> r.value.category == MultiplayerCategory
    ensures r.Some? ==>
      exists k :: (0 <= k < |stats| && stats[k] == r.value
        && forall j :: 0 <= j < k ==> stats[j].category != MultiplayerCategory)
  {
    if stats == [] then None
    else if stats[0].category == MultiplayerCategory then Some(stats[0])
    else
      var r := FindCategory(stats[1..]);
      assert r.Some? ==> exists k :: (0 <= k < |stats| && stats[k] == r.value
        && forall j :: 0 <= j < k ==> stats[j].category != MultiplayerCategory) by {
        if r.Some? {
          var k :| 0 <= k < |stats[1..]| && stats[1..][k] == r.value
            && forall j :: 0 <= j < k ==> stats[1..][j].category != MultiplayerCategory;
          assert stats[k + 1] == r.value;
          forall j | 0 <= j < k + 1 ensures stats[j].category != MultiplayerCategory {
            if j > 0 {
              assert stats[j] == stats[1..][j - 1];
            }
          }
        }
      }
      assert r.None? ==> forall k :: 0 <= k < |stats| ==> stats[k].category != MultiplayerCategory by {
        if r.None? {
          forall k | 0 < k < |stats| ensures stats[k].category != MultiplayerCategory {
            assert stats[k] == stats[1..][k - 1];
          }
        }
      }
      r
  }

  // ---------------------------------------------------------------------------
  // Day keys
  // ---------------------------------------------------------------------------

  /**
   * `new Date(row[0]).toISOString().split('T')[0]`, with the date reading
   * given as `dateKey` (`None` for an invalid date). An empty row's timestamp
   * is `undefined`, which makes an invalid date.
   */
  function DayKey(row: Row, dateKey: string -> Option<string>): (r: Option<string>)
    ensures r.Some? <==> row != [] && dateKey(row[0]).Some?
  {
    if row == [] then None else dateKey(row[0])
  }

  /** The day of every row from `from` on, or the first row whose date is invalid. */
  function DayKeys(rows: seq<Row>, dateKey: string -> Option<string>, from: nat): (r: Result<seq<string>, PageError>)
    requires from <= |rows|
    ensures r.Success? ==>
      && |r.value| == |rows| - from
      && forall i :: from <= i < |rows| ==> DayKey(rows[i], dateKey) == Some(r.value[i - from])
    ensures r.Failure? ==>
      && r.error.InvalidDate?
      && from <= r.error.row < |rows|
      && DayKey(rows[r.error.row], dateKey).None?
      && forall i :: from <= i < r.error.row ==> DayKey(rows[i], dateKey).Some?
    decreases |rows| - from
  {
    if from == |rows| then Success([])
    else
      match DayKey(rows[from], dateKey)
      case None => Failure(InvalidDate(from))
      case Some(day) =>
        match DayKeys(rows, dateKey, from + 1)
        case Failure(e) => Failure(e)
        case Success(days) => Success([day] + days)
  }

  // ---------------------------------------------------------------------------
  // Bucketing by day
  // ---------------------------------------------------------------------------

  /** The distinct days, in the order they are first met. */
  function FirstSeen(days: seq<string>): (r: seq<string>)
    ensures |r| <= |days|
    ensures days != [] ==> r != [] && r[0] == days[0]
    decreases |days|
  {
    if days == [] then []
    else
      var before := FirstSeen(days[..|days| - 1]);
      if days[|days| - 1] in before then before else before + [days[|days| - 1]]
  }

  /** The kills of the rows on `day`. */
  function KillsOn(days: seq<string>, kills: seq<int>, day: string): (r: int)
    requires |days| == |kills|
    ensures (forall i :: 0 <= i < |kills| ==> kills[i] >= 0) ==> r >= 0
    decreases |days|
  {
    if days == [] then 0
    else
      var n := |days| - 1;
      KillsOn(days[..n], kills[..n], day) + (if days[n] == day then kills[n] else 0)
  }

  /** The kills of each of `labels`. */
  function DailyTotals(days: seq<string>, kills: seq<int>, labels: seq<string>): seq<int>
    requires |days| == |kills|
  {
    seq(|labels|, j requires 0 <= j < |labels| => KillsOn(days, kills, labels[j]))
  }

  /** The position of the first occurrence of `day`, or `|days|` when there is none. */
  function FirstIndex(days: seq<string>, day: string): (r: nat)
    ensures r <= |days|
    ensures forall k :: 0 <= k < r ==> days[k] != day
    ensures r < |days| ==> days[r] == day
  {
    if days == [] then 0
    else if days[0] == day then 0
    else 1 + FirstIndex(days[1..], day)
  }

  lemma {:induction false} FirstSeenMembers(days: seq<string>, day: string)
    ensures day in FirstSeen(days) <==> day in days
    decreases |days|
  {
    if days != [] {
      var n := |days| - 1;
      FirstSeenMembers(days[..n], day);
      assert days == days[..n] + [days[n]];
    }
  }

  lemma {:induction false} FirstSeenDistinct(days: seq<string>)
    ensures forall i, j :: 0 <= i < j < |FirstSeen(days)| ==> FirstSeen(days)[i] != FirstSeen(days)[j]
    decreases |days|
  {
    if days != [] {
      FirstSeenDistinct(days[..|days| - 1]);
    }
  }

  /** Each day met before another is first met is listed before it. */
  lemma {:induction false} FirstSeenOrdered(days: seq<string>)
    ensures forall i, j :: 0 <= i < j < |FirstSeen(days)| ==>
      FirstIndex(days, FirstSeen(days)[i]) < FirstIndex(days, FirstSeen(days)[j])
    ensures forall i :: 0 <= i < |FirstSeen(days)| ==> FirstIndex(days, FirstSeen(days)[i]) < |days|
    decreases |days|
  {
    if days != [] {
      var n := |days| - 1;
      var p := days[..n];
      var before := FirstSeen(p);
      var labels := FirstSeen(days);
      assert days == p + [days[n]];
      FirstSeenOrdered(p);
      forall i | 0 <= i < |before|
        ensures FirstIndex(days, before[i]) == FirstIndex(p, before[i])
      {
        FirstIndexSnoc(p, days[n], before[i]);
      }
      if days[n] in before {
        assert labels == before;
      } else {
        FirstSeenMembers(p, days[n]);
        FirstIndexSnoc(p, days[n], days[n]);
        assert FirstIndex(days, days[n]) == n;
        assert labels == before + [days[n]];
        forall i | 0 <= i < |before|
          ensures FirstIndex(days, labels[i]) < FirstIndex(days, labels[|before|])
        {
          assert labels[i] == before[i];
        }
      }
    }
  }

  lemma {:induction false} FirstIndexSnoc(p: seq<string>, last: string, day: string)
    ensures FirstIndex(p + [last], day) == if day in p then FirstIndex(p, day) else if day == last then |p| else |p| + 1
    decreases |p|
  {
    if p != [] {
      assert (p + [last])[0] == p[0];
      assert (p + [last])[1..] == p[1..] + [last];
      FirstIndexSnoc(p[1..], last, day);
      assert day in p <==> day == p[0] || day in p[1..];
    } else {
      assert p + [last] == [last];
    }
  }

  lemma {:induction false} KillsOnAbsent(days: seq<string>, kills: seq<int>, day: string)
    requires |days| == |kills| && day !in days
    ensures KillsOn(days, kills, day) == 0
    decreases |days|
  {
    if days != [] {
      var n := |days| - 1;
      assert day !in days[..n] by {
        assert forall x :: x in days[..n] ==> x in days;
      }
      KillsOnAbsent(days[..n], kills[..n], day);
    }
  }

  lemma {:induction false} SumSnoc(xs: seq<int>, x: int)
    ensures Sum(xs + [x]) == Sum(xs) + x
    decreases |xs|
  {
    if xs != [] {
      assert (xs + [x])[1..] == xs[1..] + [x];
      SumSnoc(xs[1..], x);
    } else {
      assert xs + [x] == [x];
    }
  }

  /** Adding `x` at one position of a sequence adds `x` to its sum. */
  lemma {:induction false} SumAddAt(xs: seq<int>, ys: seq<int>, p: nat, x: int)
    requires |xs| == |ys| && p < |xs|
    requires ys[p] == xs[p] + x
    requires forall j :: 0 <= j < |xs| && j != p ==> ys[j] == xs[j]
    ensures Sum(ys) == Sum(xs) + x
    decreases |xs|
  {
    if p == 0 {
      assert xs[1..] == ys[1..];
    } else {
      SumAddAt(xs[1..], ys[1..], p - 1, x);
    }
  }

  /** No kill is lost or counted twice: the daily totals add up to the kills of all rows. */
  lemma {:induction false} DailyTotalsConserve(days: seq<string>, kills: seq<int>)
    requires |days| == |kills|
    ensures Sum(DailyTotals(days, kills, FirstSeen(days))) == Sum(kills)
    decreases |days|
  {
    if days == [] {
      assert DailyTotals(days, kills, FirstSeen(days)) == [];
    } else {
      var n := |days| - 1;
      var p, pk := days[..n], kills[..n];
      var day, x := days[n], kills[n];
      var before := FirstSeen(p);
      var old_ := DailyTotals(p, pk, before);
      var new_ := DailyTotals(days, kills, FirstSeen(days));
      DailyTotalsConserve(p, pk);
      assert kills == pk + [x];
      SumSnoc(pk, x);
      if day in before {
        FirstSeenDistinct(p);
        var q :| 0 <= q < |before| && before[q] == day;
        SumAddAt(old_, new_, q, x);
      } else {
        FirstSeenMembers(p, day);
        KillsOnAbsent(p, pk, day);
        assert new_ == old_ + [x];
        SumSnoc(old_, x);
      }
    }
  }

  /**
   * The loop over the rows into the object `aggregatedData`, then
   * `Object.keys` and the `map` over it. `totals` is the object and `labels`
   * its keys in insertion order (day strings are never array indices).
   */
  method AggregateByDay(days: seq<string>, kills: seq<int>) returns (labels: seq<string>, values: seq<int>)
    requires |days| == |kills|
    ensures labels == FirstSeen(days)
    ensures values == DailyTotals(days, kills, labels)
  {
    var totals: map<string, int> := map[];
    labels := [];
    var i := 0;
    while i < |days|
      invariant 0 <= i <= |days|
      invariant labels == FirstSeen(days[..i])
      invariant forall d :: d in totals <==> d in labels
      invariant forall d :: d in totals ==> totals[d] == KillsOn(days[..i], kills[..i], d)
    {
      var day := days[i];
      assert days[..i + 1][..i] == days[..i];
      assert kills[..i + 1][..i] == kills[..i];
      if day !in totals || totals[day] == 0 {
        if day !in totals {
          FirstSeenMembers(days[..i], day);
          KillsOnAbsent(days[..i], kills[..i], day);
          labels := labels + [day];
        }
        totals := totals[day := 0];
      }
      totals := totals[day := totals[day] + kills[i]];
      i := i + 1;
    }
    assert days[..i] == days;
    assert kills[..i] == kills;
    values := seq(|labels|, j requires 0 <= j < |labels| => totals[labels[j]]);
  }

  // ---------------------------------------------------------------------------
  // The page
  // ---------------------------------------------------------------------------

  /** The page for the game picked: its multiplayer category bucketed by day, or a notice. */
  function ChartFor(reportId: string, g: Game, dateKey: string -> Option<string>): (r: Result<Page, PageError>)
    ensures r == Success(NoMultiplayerData) <==> FindCategory(g.stats).None?
    ensures r.Failure? ==> r.error.InvalidDate?
    ensures r.Success? && r.value.Chart? ==>
      && r.value.reportId == reportId
      && |r.value.labels| == |r.value.values|
      && forall i, j :: 0 <= i < j < |r.value.labels| ==> r.value.labels[i] != r.value.labels[j]
    ensures r.Success? && r.value.Chart? ==>
      && FindCategory(g.stats).Some?
      && var rows := DropHeader(FindCategory(g.stats).value.data);
      && DayKeys(rows, dateKey, 0).Success?
      && r.value.labels == FirstSeen(DayKeys(rows, dateKey, 0).value)
      && r.value.values == DailyTotals(DayKeys(rows, dateKey, 0).value, ColumnOf(rows, KillsColumn), r.value.labels)
  {
    match FindCategory(g.stats)
    case None => Success(NoMultiplayerData)
    case Some(c) =>
      var rows := DropHeader(c.data);
      match DayKeys(rows, dateKey, 0)
      case Failure(e) => Failure(e)
      case Success(days) =>
        var labels := FirstSeen(days);
        FirstSeenDistinct(days);
        Success(Chart(reportId, labels, DailyTotals(days, ColumnOf(rows, KillsColumn), labels)))
  }

  /** `generateTemporaryPage(reportID, games)` as written: the search runs over the transformed games. */
  function RenderPage(reportId: string, games: seq<Transformed>, dateKey: string -> Option<string>): (r: Result<Page, PageError>)
    ensures r == Success(NoColdWarData) <==> forall k :: 0 <= k < |games| ==> PassedOver(games, k)
    ensures r.Failure? && r.error.TitleUndefined? ==> r.error.index < |games| && games[r.error.index].ColdWarSummary?
  {
    match FindColdWar(games, 0)
    case Failure(e) => Failure(e)
    case Success(None) => Success(NoColdWarData)
    case Success(Some(g)) => ChartFor(reportId, g, dateKey)
  }

  /** The page with the search run over the parsed games, which all have titles. */
  function RenderPageCorrected(reportId: string, games: seq<Game>, dateKey: string -> Option<string>): (r: Result<Page, PageError>)
    ensures r == Success(NoColdWarData) <==> forall k :: 0 <= k < |games| ==> !IsColdWarTitle(games[k].title)
    ensures r.Failure? ==> r.error.InvalidDate?
  {
    match FindParsed(games)
    case None => Success(NoColdWarData)
    case Some(g) => ChartFor(reportId, g, dateKey)
  }

  /** When no game was summarised, the page as written is the corrected page. */
  lemma RenderPagesAgreeOnRawGames(reportId: string, games: seq<Game>, dateKey: string -> Option<string>)
    ensures RenderPage(reportId, seq(|games|, k requires 0 <= k < |games| => Raw(games[k])), dateKey)
         == RenderPageCorrected(reportId, games, dateKey)
  {
    RawSelectionAgrees(games, 0);
    assert games[0..] == games;
  }
}

=== FILE: pipeline.dfy ===
/**
 * The upload handler's `reader.onload`: parse the report, run every game
 * through the registry in order, and build the page. `Run` hands the page
 * the transformed games, as the handler does; `RunCorrected` hands it the
 * parsed games, whose titles are all present.
 */
module Pipeline {
  import opened Wrappers
  import opened Text
  import opened Report
  import opened ColdWar
  import opened Registry
  import opened DailyKills

  /** The exception that ends a run, by where it is thrown. */
  datatype RunError = ParseFailed(parse: ParseError) | PageFailed(page: PageError)

  /** A game that some module summarises, so that it loses its title. */
  predicate Summarised(modules: Modules, games: seq<Game>) {
    exists k :: 0 <= k < |games| && ModuleKey(games[k].title) in modules
  }

  /** The handler as written. */
  function Run(doc: Document, modules: Modules, dateKey: string -> Option<string>): (r: Result<Page, RunError>)
    ensures ParseReport(doc).Failure? <==> r.Failure? && r.error.ParseFailed?
    ensures r.Failure? && r.error.PageFailed? && r.error.page.TitleUndefined? ==>
      ParseReport(doc).Success? && Summarised(modules, ParseReport(doc).value.games)
  {
    match ParseReport(doc)
    case Failure(e) => Failure(ParseFailed(e))
    case Success(report) =>
      var games := TransformedGames(modules, report.games);
      match RenderPage(report.reportId, games, dateKey)
      case Failure(e) =>
        assert e.TitleUndefined? ==> e.index < |report.games| && ModuleKey(report.games[e.index].title) in modules;
        Failure(PageFailed(e))
      case Success(page) => Success(page)
  }

  /** The handler with the page built from the parsed games: a title is never missing. */
  function RunCorrected(doc: Document, dateKey: string -> Option<string>): (r: Result<Page, RunError>)
    ensures ParseReport(doc).Failure? <==> r.Failure? && r.error.ParseFailed?
    ensures r.Failure? && r.error.PageFailed? ==> r.error.page.InvalidDate?
  {
    match ParseReport(doc)
    case Failure(e) => Failure(ParseFailed(e))
    case Success(report) =>
      match RenderPageCorrected(report.reportId, report.games, dateKey)
      case Failure(e) => Failure(PageFailed(e))
      case Success(page) => Success(page)
  }

  /** Unless some game is summarised, the handler as written and the corrected one agree. */
  lemma RunsAgreeWithoutSummaries(doc: Document, modules: Modules, dateKey: string -> Option<string>)
    requires ParseReport(doc).Success? ==> !Summarised(modules, ParseReport(doc).value.games)
    ensures Run(doc, modules, dateKey) == RunCorrected(doc, dateKey)
  {
    if ParseReport(doc).Success? {
      var report := ParseReport(doc).value;
      var games := report.games;
      assert TransformedGames(modules, games) == seq(|games|, k requires 0 <= k < |games| => Raw(games[k])) by {
        forall k | 0 <= k < |games|
          ensures TransformedGames(modules, games)[k] == Raw(games[k])
        {
          assert ModuleKey(games[k].title) !in modules;
        }
      }
      RenderPagesAgreeOnRawGames(report.reportId, games, dateKey);
    }
  }

  /**
   * When no module specifier resolves, the registry is empty: every game
   * passes through raw and the handler never misses a title.
   */
  lemma UnresolvedModulesNeverCrash(doc: Document, dateKey: string -> Option<string>)
    ensures Run(doc, map[], dateKey) == RunCorrected(doc, dateKey)
    ensures Run(doc, map[], dateKey).Failure? && Run(doc, map[], dateKey).error.PageFailed? ==>
      Run(doc, map[], dateKey).error.page.InvalidDate?
  {
    RunsAgreeWithoutSummaries(doc, map[], dateKey);
  }

  // ---------------------------------------------------------------------------
  // Worked examples
  // ---------------------------------------------------------------------------

  /** `parseInt` of a one-digit string. */
  lemma ReadsDigit(d: nat)
    requires d < 10
    ensures ParseInt([DigitChar(d)]) == Some(d)
  {
    ParseShowInt(d);
  }

  lemma ReadsMinusThree()
    ensures ParseInt("-3") == Some(-3)
  {
    ParseShowInt(-3);
    assert ShowInt(-3) == "-3";
  }

  lemma ColdWarTitleMatches()
    ensures IsColdWarTitle("Cold War")
  {
    assert LowerAscii("Cold War") == "cold war";
    assert OccursAt(LowerAscii("Cold War"), ColdWarNeedle, 0);
  }

  const ExampleTimestamp := "2023-01-01T00:00:00Z"

  const ExampleHeader: Row := ["UTC Timestamp", "Device Type", "Game Type", "Map", "Operator", "Kills"]

  /** A match row cut short after its kills cell. */
  const ShortMatchRow: Row := [ExampleTimestamp, "PC", "Team Deathmatch", "Nuketown", "Operator", "5"]

  /** A report: the boilerplate title, one game heading, one category and its table. */
  function OneGameReport(title: string, category: string, rows: seq<Row>): Document {
    Document(None, [H1("Activision SAR Report"), H1(title), H2(category), Table(rows)])
  }

  /** Such a report parses to the one game, with the table's rows as the category's data. */
  lemma OneGameReportParses(title: string, category: string, rows: seq<Row>)
    requires title !in IgnoredTitles
    ensures ParseReport(OneGameReport(title, category, rows))
         == Success(ParsedReport(UnknownReportId, [Game(title, [StatCategory(category, rows)])]))
  {
    var nodes := OneGameReport(title, category, rows).nodes;
    var g0 := Game(title, []);
    var g1 := Game(title, [StatCategory(category, [])]);
    var g2 := Game(title, [StatCategory(category, rows)]);
    assert Step([], nodes[0]) == Some([]);
    assert [] + [g0] == [g0];
    assert Step([], nodes[1]) == Some([g0]);
    assert [] + [StatCategory(category, [])] == [StatCategory(category, [])];
    assert WithLast([g0], g1) == [g1];
    assert Step([g0], nodes[2]) == Some([g1]);
    assert [] + rows == rows;
    assert WithLast(g1.stats, g2.stats[0]) == g2.stats;
    assert WithLast([g1], g2) == [g2];
    assert Step([g1], nodes[3]) == Some([g2]);
    assert Fold([g2], nodes[4..], 4) == Success([g2]);
    assert Fold([g1], nodes[3..], 3) == Success([g2]);
    assert Fold([g0], nodes[2..], 2) == Success([g2]);
    assert Fold([], nodes[1..], 1) == Success([g2]);
  }

  /** A report whose only game is titled "Cold War", with one match. */
  const ColdWarTitledReport := OneGameReport("Cold War", MultiplayerCategory, [ExampleHeader, ShortMatchRow])

  lemma ColdWarTitledReportParses()
    ensures ParseReport(ColdWarTitledReport)
         == Success(ParsedReport(UnknownReportId, [Game("Cold War", [StatCategory(MultiplayerCategory, [ExampleHeader, ShortMatchRow])])]))
  {
    assert "Cold War" !in IgnoredTitles by {
      forall i | 0 <= i < |IgnoredTitles| ensures |IgnoredTitles[i]| != |"Cold War"| {}
    }
    OneGameReportParses("Cold War", MultiplayerCategory, [ExampleHeader, ShortMatchRow]);
  }

  const ColdWarTitledGame := Game("Cold War", [StatCategory(MultiplayerCategory, [ExampleHeader, ShortMatchRow])])

  /** A single row falls on the day of its timestamp. */
  lemma OneRowDay(dateKey: string -> Option<string>, row: Row, day: string)
    requires row != [] && dateKey(row[0]) == Some(day)
    ensures DayKeys([row], dateKey, 0) == Success([day])
    ensures FirstSeen([day]) == [day]
  {
    assert DayKeys([row], dateKey, 1) == Success([]);
    assert [day] + [] == [day];
  }

  /** A single row with 5 kills totals 5 on its day. */
  lemma OneRowKills(row: Row, day: string)
    requires |row| > KillsColumn && row[KillsColumn] == "5"
    ensures ColumnOf([row], KillsColumn) == [5]
    ensures DailyTotals([day], [5], [day]) == [5]
  {
    ReadsDigit(5);
    assert CellInt(row, KillsColumn) == 5;
    assert KillsOn([day], [5], day) == 5;
  }

  /** The page for that game charts its one match: five kills on its day. */
  lemma ColdWarTitledGameChart(reportId: string, dateKey: string -> Option<string>)
    requires dateKey(ExampleTimestamp) == Some("2023-01-01")
    ensures ChartFor(reportId, ColdWarTitledGame, dateKey) == Success(Chart(reportId, ["2023-01-01"], [5]))
  {
    assert FindCategory(ColdWarTitledGame.stats) == Some(ColdWarTitledGame.stats[0]);
    assert DropHeader([ExampleHeader, ShortMatchRow]) == [ShortMatchRow];
    assert ShortMatchRow[0] == ExampleTimestamp && ShortMatchRow[KillsColumn] == "5";
    OneRowDay(dateKey, ShortMatchRow, "2023-01-01");
    OneRowKills(ShortMatchRow, "2023-01-01");
  }

  /**
   * The handler as written throws on this report: the game's key is
   * `ColdWar`, so it becomes a summary without a title, and the search for
   * the Cold War game reads that missing title.
   */
  lemma ColdWarTitledReportCrashes(dateKey: string -> Option<string>)
    ensures Run(ColdWarTitledReport, Shipped, dateKey) == Failure(PageFailed(TitleUndefined(0)))
  {
    ColdWarTitledReportParses();
    ColdWarTitleIsSummarised(ColdWarTitledGame.stats);
    assert TransformedGames(Shipped, [ColdWarTitledGame])[0].ColdWarSummary?;
  }

  /** Built from the parsed games, the page for the same report charts the match. */
  lemma ColdWarTitledReportCharted(dateKey: string -> Option<string>)
    requires dateKey(ExampleTimestamp) == Some("2023-01-01")
    ensures RunCorrected(ColdWarTitledReport, dateKey) == Success(Chart(UnknownReportId, ["2023-01-01"], [5]))
  {
    ColdWarTitledReportParses();
    ColdWarTitleMatches();
    assert FindParsed([ColdWarTitledGame]) == Some(ColdWarTitledGame);
    ColdWarTitledGameChart(UnknownReportId, dateKey);
  }

  const MatchRow: Row := [ExampleTimestamp, "PC", "Team Deathmatch", "Nuketown", "Operator", "5", "0", "0", "0", "0", "0", "0", "2"]

  /** Whatever its title, a game whose one match has 5 kills and 2 deaths sums to those. */
  lemma OneMatchTotals(title: string)
    ensures var summary := TransformColdWar(Game(title, [StatCategory(MultiplayerCategory, [ExampleHeader, MatchRow])]));
      && summary.totalKills == 5
      && summary.totalDeaths == 2
      && |summary.detailedMatches| == 1
  {
    var game := Game(title, [StatCategory(MultiplayerCategory, [ExampleHeader, MatchRow])]);
    assert DataRows(game.stats) == [MatchRow] by {
      assert DataRows(game.stats[1..]) == [];
    }
    ReadsDigit(5);
    ReadsDigit(2);
    assert CellInt(MatchRow, KillsColumn) == 5;
    assert CellInt(MatchRow, DeathsColumn) == 2;
    assert ColumnOf([MatchRow], KillsColumn) == [5];
    assert ColumnOf([MatchRow], DeathsColumn) == [2];
    assert TotalOf(TransformColdWar(game), Kills) == Sum([5]);
    assert TotalOf(TransformColdWar(game), Deaths) == Sum([2]);
  }

  /**
   * A report with the boilerplate heading, the game "Call of Duty: Cold
   * War", its multiplayer category and a table of a header and one match
   * with 5 kills and 2 deaths: the summary has those totals and one match.
   */
  lemma OneMatchReportTotals()
    ensures ParseReport(OneGameReport("Call of Duty: Cold War", MultiplayerCategory, [ExampleHeader, MatchRow])).Success?
    ensures var games := ParseReport(OneGameReport("Call of Duty: Cold War", MultiplayerCategory, [ExampleHeader, MatchRow])).value.games;
      && |games| == 1
      && TransformColdWar(games[0]).totalKills == 5
      && TransformColdWar(games[0]).totalDeaths == 2
      && |TransformColdWar(games[0]).detailedMatches| == 1
  {
    var title := "Call of Duty: Cold War";
    assert title !in IgnoredTitles by {
      forall i | 0 <= i < |IgnoredTitles| ensures |IgnoredTitles[i]| > 0 && IgnoredTitles[i][0] != title[0] {}
    }
    OneGameReportParses(title, MultiplayerCategory, [ExampleHeader, MatchRow]);
    OneMatchTotals(title);
  }

  /**
   * A kills cell reading "-3" lowers the kills total: the totals are plain
   * sums of whatever `parseInt` reads and can go negative.
   */
  lemma NegativeKillsLowerTotal(title: string, category: string)
    ensures TransformColdWar(Game(title, [StatCategory(category, [ExampleHeader,
      [ExampleTimestamp, "PC", "Team Deathmatch", "Nuketown", "Operator", "-3"]])])).totalKills == -3
  {
    var row: Row := [ExampleTimestamp, "PC", "Team Deathmatch", "Nuketown", "Operator", "-3"];
    var game := Game(title, [StatCategory(category, [ExampleHeader, row])]);
    assert DataRows(game.stats) == [row] by {
      assert DataRows(game.stats[1..]) == [];
    }
    ReadsMinusThree();
    assert CellInt(row, KillsColumn) == -3;
    assert ColumnOf([row], KillsColumn) == [-3];
    assert TotalOf(TransformColdWar(game), Kills) == Sum([-3]);
  }

  /** Two rows whose timestamps fall on the same day give that day twice, and one label. */
  lemma SameDayBoth(dateKey: string -> Option<string>, r1: Row, r2: Row, day: string)
    requires r1 != [] && r2 != []
    requires dateKey(r1[0]) == Some(day) && dateKey(r2[0]) == Some(day)
    ensures DayKeys([r1, r2], dateKey, 0) == Success([day, day])
    ensures FirstSeen([day, day]) == [day]
  {
    var rows := [r1, r2];
    assert DayKeys(rows, dateKey, 2) == Success([]);
    assert [day] + [] == [day];
    assert DayKeys(rows, dateKey, 1) == Success([day]);
    assert [day] + [day] == [day, day];
    assert [day, day][..1] == [day];
    assert FirstSeen([day]) == [day];
  }

  /** Kills of 3 and 4 on one day total 7. */
  lemma SameDayKills(r1: Row, r2: Row, day: string)
    requires |r1| > KillsColumn && r1[KillsColumn] == "3"
    requires |r2| > KillsColumn && r2[KillsColumn] == "4"
    ensures ColumnOf([r1, r2], KillsColumn) == [3, 4]
    ensures DailyTotals([day, day], [3, 4], [day]) == [7]
  {
    ReadsDigit(3);
    ReadsDigit(4);
    assert CellInt(r1, KillsColumn) == 3;
    assert CellInt(r2, KillsColumn) == 4;
    assert [3, 4][..1] == [3];
    assert KillsOn([day], [3], day) == 3;
    assert KillsOn([day, day], [3, 4], day) == 7;
  }

  /**
   * Two matches on the same day with 3 and 4 kills give one label and the
   * value 7.
   */
  lemma SameDayKillsAdd(reportId: string, title: string, dateKey: string -> Option<string>, t1: string, t2: string)
    requires dateKey(t1) == Some("2023-01-01") && dateKey(t2) == Some("2023-01-01")
    ensures ChartFor(reportId, Game(title, [StatCategory(MultiplayerCategory, [ExampleHeader,
      [t1, "PC", "Team Deathmatch", "Nuketown", "Operator", "3"],
      [t2, "PC", "Team Deathmatch", "Nuketown", "Operator", "4"]])]), dateKey)
      == Success(Chart(reportId, ["2023-01-01"], [7]))
  {
    var r1: Row := [t1, "PC", "Team Deathmatch", "Nuketown", "Operator", "3"];
    var r2: Row := [t2, "PC", "Team Deathmatch", "Nuketown", "Operator", "4"];
    var game := Game(title, [StatCategory(MultiplayerCategory, [ExampleHeader, r1, r2])]);
    var day := "2023-01-01";
    assert FindCategory(game.stats) == Some(game.stats[0]);
    assert DropHeader([ExampleHeader, r1, r2]) == [r1, r2];
    SameDayBoth(dateKey, r1, r2, day);
    SameDayKills(r1, r2, day);
  }
}

=== FILE: registry.dfy ===
/**
 * `transformGameData`: a game is handed to the module
 * `js/transformGames/<title with white space removed>.js` when one exists,
 * and passed through unchanged otherwise. The dynamic import becomes a
 * lookup in a finite map from module key to transformer.
 */
module Registry {
  import opened Text
  import opened Report
  import opened ColdWar

  /** The transformer modules that exist. */
  datatype Transformer = ColdWarTransformer

  /** A game after dispatch: its transformer's summary, or the game itself. */
  datatype Transformed = Raw(game: Game) | ColdWarSummary(summary: Summary)

  type Modules = map<string, Transformer>

  /**
   * `js/transformGames/` holds `ColdWar.js` and nothing else. This map
   * assumes the import specifier built from a key resolves to that file; if
   * it does not resolve, the modules that exist are `map[]`. The map is
   * matched on the exact key: URL normalisation of the specifier (dot
   * segments, a `?query` or `#fragment`) and case-insensitive servers, which
   * can also reach `ColdWar.js` from other keys, are not modelled.
   */
  const Shipped: Modules := map["ColdWar" := ColdWarTransformer]

  /** The module name tried for a title: the title with all white space removed. */
  function ModuleKey(title: string): (k: string)
    ensures forall i :: 0 <= i < |k| ==> !IsSpace(k[i])
    ensures |k| <= |title|
  {
    RemoveSpaces(title)
  }

  /** `transformModule.default(game)`: a summary, never the raw game, with one record per data row. */
  function Apply(t: Transformer, g: Game): (r: Transformed)
    ensures !r.Raw?
    ensures r.ColdWarSummary? ==> |r.summary.detailedMatches| == NonHeaderRowCount(g.stats)
  {
    match t
    case ColdWarTransformer => ColdWarSummary(TransformColdWar(g))
  }

  /**
   * One game through the registry: the transformer found under its key, or
   * the raw game (the failed import is caught). No shipped transformer can
   * throw, so the catch never sees a transformer's own exception.
   */
  function TransformGame(modules: Modules, g: Game): (r: Transformed)
    ensures r.Raw? <==> ModuleKey(g.title) !in modules
    ensures r.Raw? ==> r.game == g
    ensures !r.Raw? ==> r == Apply(modules[ModuleKey(g.title)], g)
  {
    var key := ModuleKey(g.title);
    if key in modules then Apply(modules[key], g) else Raw(g)
  }

  /** The sequential `for ... of` loop that builds `transformedGames`. */
  method TransformAll(modules: Modules, games: seq<Game>) returns (out: seq<Transformed>)
    ensures |out| == |games|
    ensures forall k :: 0 <= k < |games| ==> out[k] == TransformGame(modules, games[k])
    ensures out == TransformedGames(modules, games)
  {
    out := [];
    var i := 0;
    while i < |games|
      invariant 0 <= i <= |games|
      invariant |out| == i
      invariant forall k :: 0 <= k < i ==> out[k] == TransformGame(modules, games[k])
    {
      out := out + [TransformGame(modules, games[i])];
      i := i + 1;
    }
  }

  /** The value `TransformAll` builds, for use in specifications: each game's dispatch, in order. */
  function TransformedGames(modules: Modules, games: seq<Game>): (r: seq<Transformed>)
    ensures |r| == |games|
    ensures forall k :: 0 <= k < |games| ==> r[k] == TransformGame(modules, games[k])
  {
    seq(|games|, k requires 0 <= k < |games| => TransformGame(modules, games[k]))
  }

  /**
   * Exactly the games whose title, stripped of white space, is `ColdWar`
   * are summarised; every other game passes through unchanged.
   */
  lemma ShippedDispatch(g: Game)
    ensures TransformGame(Shipped, g).ColdWarSummary? <==> ModuleKey(g.title) == "ColdWar"
    ensures ModuleKey(g.title) != "ColdWar" ==> TransformGame(Shipped, g) == Raw(g)
    ensures ModuleKey(g.title) == "ColdWar" ==> TransformGame(Shipped, g) == ColdWarSummary(TransformColdWar(g))
  {
  }

  /**
   * Only the white space of a title matters for dispatch: titles that agree
   * once it is removed resolve to the same transformer, and a transformer's
   * output does not depend on the title.
   */
  lemma {:induction false} DispatchIgnoresSpacing(modules: Modules, a: string, b: string, stats: seq<StatCategory>)
    requires ModuleKey(a) == ModuleKey(b)
    ensures TransformGame(modules, Game(a, stats)).Raw? == TransformGame(modules, Game(b, stats)).Raw?
    ensures !TransformGame(modules, Game(a, stats)).Raw? ==>
      TransformGame(modules, Game(a, stats)) == TransformGame(modules, Game(b, stats))
  {
    if ModuleKey(a) in modules {
      match modules[ModuleKey(a)]
      case ColdWarTransformer =>
        ColdWarIgnoresTitle(Game(a, stats), b);
    }
  }

  /** The Cold War summary reads only the stat categories. */
  lemma ColdWarIgnoresTitle(g: Game, title: string)
    ensures TransformColdWar(g.(title := title)) == TransformColdWar(g)
  {
    ProcessCategoriesFlattens(InitialSummary, g.stats);
    ProcessCategoriesFlattens(InitialSummary, g.(title := title).stats);
  }

  /** Removing the white space of a key already stripped changes nothing: a module key is a fixed point. */
  lemma ModuleKeyStable(title: string)
    ensures ModuleKey(ModuleKey(title)) == ModuleKey(title)
  {
    RemoveSpacesIdempotent(title);
  }

  /** A game titled "Warzone" has no transformer and comes back as itself. */
  lemma WarzonePassesThrough(stats: seq<StatCategory>)
    ensures TransformGame(Shipped, Game("Warzone", stats)) == Raw(Game("Warzone", stats))
  {
    assert ModuleKey("Warzone") == "Warzone" by {
      RemoveSpacesKeepsSpaceless("Warzone");
    }
  }

  /** A title holding a character other than white space that `ColdWar` lacks (a colon, say) has no module. */
  lemma ForeignCharacterPassesThrough(g: Game, c: char)
    requires c in g.title && !IsSpace(c) && c !in "ColdWar"
    ensures TransformGame(Shipped, g) == Raw(g)
  {
    RemoveSpacesKeeps(g.title, c);
  }

  /** So a longer title such as "Call of Duty: Black Ops Cold War" is passed through raw. */
  lemma FullTitlePassesThrough(stats: seq<StatCategory>)
    ensures TransformGame(Shipped, Game("Call of Duty: Black Ops Cold War", stats)).Raw?
  {
    var title := "Call of Duty: Black Ops Cold War";
    assert title[12] == ':';
    ForeignCharacterPassesThrough(Game(title, stats), ':');
  }

  lemma ColdWarKey()
    ensures ModuleKey("Cold War") == "ColdWar"
  {
    var s := "Cold War";
    assert s[4..][1..] == s[5..];
    RemoveSpacesKeepsSpaceless(s[5..]);
    RemoveSpacesKeepsSpaceless(s[..4]);
    RemoveSpacesAppend(s[..4], s[4..]);
    assert s == s[..4] + s[4..];
  }

  /** A game titled "Cold War" does reach the Cold War transformer. */
  lemma ColdWarTitleIsSummarised(stats: seq<StatCategory>)
    ensures TransformGame(Shipped, Game("Cold War", stats)).ColdWarSummary?
  {
    ColdWarKey();
  }
}

=== FILE: report.dfy ===
/**
 * The report parser: a fold over the document-order sequence of `h1`, `h2`
 * and `table` nodes that builds the game -> stat category -> rows hierarchy,
 * and the extraction of the report id from the first paragraph.
 *
 * The parser's `currentGame` is always the game last pushed onto `games`
 * (the two are the same object), so the fold state is the list of games
 * alone: the current game is its last element, and there is none while the
 * list is empty.
 */
module Report {
  import opened Wrappers
  import opened Text

  /** A table row: the trimmed text of its `td`/`th` cells, in column order. */
  type Row = seq<string>

  /** The nodes the parser selects, with their text already trimmed. */
  datatype Node = H1(text: string) | H2(text: string) | Table(rows: seq<Row>)

  datatype StatCategory = StatCategory(category: string, data: seq<Row>)

  datatype Game = Game(title: string, stats: seq<StatCategory>)

  /** A parsed document: the text of its first `p`, if any, and its selected nodes in document order. */
  datatype Document = Document(firstParagraph: Option<string>, nodes: seq<Node>)

  datatype ParsedReport = ParsedReport(reportId: string, games: seq<Game>)

  /** The `TypeError` thrown when an `h2` or `table` at `position` is met with no current game. */
  datatype ParseError = NoCurrentGame(position: nat)

  /** Report boilerplate headings that never start a game. */
  const IgnoredTitles: seq<string> := [
    "Activision SAR Report",
    "How We Use Your Personal Information",
    "Information We Collect",
    "Who We Send Your Data To",
    "Who Your Data Comes From",
    "How Long We Keep Your Data",
    "Your Rights"
  ]

  /**
   * Whether a node starts a game: only an `h1` does, and every `h1` shorter
   * than the shortest boilerplate title ("Your Rights") does.
   */
  function StartsGame(n: Node): (b: bool)
    ensures b ==> n.H1?
    ensures n.H1? && |n.text| < 11 ==> b
  {
    assert forall i :: 0 <= i < |IgnoredTitles| ==> |IgnoredTitles[i]| >= 11;
    n.H1? && n.text !in IgnoredTitles
  }

  // ---------------------------------------------------------------------------
  // The node fold
  // ---------------------------------------------------------------------------

  /** Replaces the last element of a non-empty sequence. */
  function WithLast<T>(s: seq<T>, x: T): (r: seq<T>)
    requires s != []
    ensures |r| == |s| && r[|s| - 1] == x
    ensures forall i :: 0 <= i < |s| - 1 ==> r[i] == s[i]
  {
    s[..|s| - 1] + [x]
  }

  /** One call of the reducer; `None` when it dereferences a null `currentGame`. */
  function Step(games: seq<Game>, node: Node): (r: Option<seq<Game>>)
    ensures r.None? <==> games == [] && !node.H1?
    ensures r.Some? ==> |r.value| == |games| + (if StartsGame(node) then 1 else 0)
    ensures r.Some? && StartsGame(node) ==> r.value[|games|] == Game(node.text, [])
  {
    match node
    case H1(t) =>
      if t in IgnoredTitles then Some(games) else Some(games + [Game(t, [])])
    case H2(t) =>
      if games == [] then None
      else
        var g := games[|games| - 1];
        Some(WithLast(games, g.(stats := g.stats + [StatCategory(t, [])])))
    case Table(rows) =>
      if games == [] then None
      else
        var g := games[|games| - 1];
        if g.stats == [] then Some(games)
        else
          var c := g.stats[|g.stats| - 1];
          Some(WithLast(games, g.(stats := WithLast(g.stats, c.(data := c.data + rows)))))
  }

  /** `reduce` over `nodes`, the first of which sits at `position` in the document. */
  function Fold(games: seq<Game>, nodes: seq<Node>, position: nat): (r: Result<seq<Game>, ParseError>)
    ensures r.Success? ==> |r.value| >= |games|
    ensures r.Failure? ==> position <= r.error.position < position + |nodes|
    decreases |nodes|
  {
    if nodes == [] then Success(games)
    else
      match Step(games, nodes[0])
      case None => Failure(NoCurrentGame(position))
      case Some(next) => Fold(next, nodes[1..], position + 1)
  }

  function ParseNodes(nodes: seq<Node>): (r: Result<seq<Game>, ParseError>)
    ensures r.Success? ==> |r.value| == |GameHeadings(nodes)|
    ensures r.Failure? ==> r.error.position < |nodes| && !nodes[r.error.position].H1?
  {
    FoldFromEmptyErrorAt(nodes, 0);
    var r := Fold([], nodes, 0);
    if r.Success? then
      FoldViews([], nodes, 0);
      assert |Titles(r.value)| == |r.value|;
      r
    else r
  }

  function ParseReport(doc: Document): (r: Result<ParsedReport, ParseError>)
    ensures r.Success? ==> |r.value.games| == |GameHeadings(doc.nodes)|
    ensures r.Success? ==> r.value.reportId == UnknownReportId || (|r.value.reportId| > 0 && IsDecimalDigit(r.value.reportId[0]))
    ensures r.Failure? ==> r.error.position < |doc.nodes| && !doc.nodes[r.error.position].H1?
  {
    match ParseNodes(doc.nodes)
    case Failure(e) => Failure(e)
    case Success(games) => Success(ParsedReport(ReportId(doc.firstParagraph), games))
  }

  // ---------------------------------------------------------------------------
  // Reference views of a node sequence and of a game list
  // ---------------------------------------------------------------------------

  /** Texts of the headings that start a game, in document order. */
  function GameHeadings(nodes: seq<Node>): seq<string> {
    if nodes == [] then []
    else (if StartsGame(nodes[0]) then [nodes[0].text] else []) + GameHeadings(nodes[1..])
  }

  /** Texts of the `h2` headings, in document order. */
  function CategoryHeadings(nodes: seq<Node>): seq<string> {
    if nodes == [] then []
    else (if nodes[0].H2? then [nodes[0].text] else []) + CategoryHeadings(nodes[1..])
  }

  function Titles(games: seq<Game>): seq<string> {
    seq(|games|, i requires 0 <= i < |games| => games[i].title)
  }

  function CategoryNamesOf(stats: seq<StatCategory>): seq<string> {
    seq(|stats|, i requires 0 <= i < |stats| => stats[i].category)
  }

  /** Every category name of every game, game by game. */
  function CategoryNames(games: seq<Game>): seq<string> {
    if games == [] then [] else CategoryNamesOf(games[0].stats) + CategoryNames(games[1..])
  }

  /** No game has been started by any node before index `i`. */
  predicate NoGameBefore(nodes: seq<Node>, i: nat) {
    forall j :: 0 <= j < i && j < |nodes| ==> !StartsGame(nodes[j])
  }

  // ---------------------------------------------------------------------------
  // Properties of the fold
  // ---------------------------------------------------------------------------

  lemma {:induction false} CategoryNamesAppend(a: seq<Game>, b: seq<Game>)
    ensures CategoryNames(a + b) == CategoryNames(a) + CategoryNames(b)
  {
    if a == [] {
      assert a + b == b;
    } else {
      assert (a + b)[0] == a[0];
      assert (a + b)[1..] == a[1..] + b;
      CategoryNamesAppend(a[1..], b);
    }
  }

  lemma {:induction false} CategoryNamesWithLast(games: seq<Game>, g: Game)
    requires games != []
    ensures CategoryNames(WithLast(games, g))
         == CategoryNames(games[..|games| - 1]) + CategoryNamesOf(g.stats)
    ensures CategoryNames(games)
         == CategoryNames(games[..|games| - 1]) + CategoryNamesOf(games[|games| - 1].stats)
  {
    var init := games[..|games| - 1];
    CategoryNamesAppend(init, [g]);
    CategoryNamesAppend(init, [games[|games| - 1]]);
    assert games == init + [games[|games| - 1]];
    assert CategoryNames([g]) == CategoryNamesOf(g.stats);
    assert CategoryNames([games[|games| - 1]]) == CategoryNamesOf(games[|games| - 1].stats);
  }

  /** One step adds the started game's title and the `h2`'s name, and nothing else. */
  lemma StepViews(games: seq<Game>, node: Node)
    requires Step(games, node).Some?
    ensures Titles(Step(games, node).value)
         == Titles(games) + (if StartsGame(node) then [node.text] else [])
    ensures CategoryNames(Step(games, node).value)
         == CategoryNames(games) + (if node.H2? then [node.text] else [])
  {
    StepTitles(games, node);
    StepCategoryNames(games, node);
  }

  /** One step adds the started game's title and keeps every other title. */
  lemma StepTitles(games: seq<Game>, node: Node)
    requires Step(games, node).Some?
    ensures Titles(Step(games, node).value)
         == Titles(games) + (if StartsGame(node) then [node.text] else [])
  {
    var next := Step(games, node).value;
    var added := if StartsGame(node) then [node.text] else [];
    var want := Titles(games) + added;
    assert |next| == |want|;
    forall i | 0 <= i < |next|
      ensures next[i].title == want[i]
    {
      if i < |games| {
        assert next[i].title == games[i].title;
      }
    }
  }

  /** One step adds the `h2`'s name and keeps every other category name. */
  lemma {:induction false} StepCategoryNames(games: seq<Game>, node: Node)
    requires Step(games, node).Some?
    ensures CategoryNames(Step(games, node).value)
         == CategoryNames(games) + (if node.H2? then [node.text] else [])
  {
    match node
    case H1(t) =>
      if StartsGame(node) {
        CategoryNamesAppend(games, [Game(t, [])]);
        assert CategoryNames([Game(t, [])]) == [];
      }
    case H2(t) =>
      var g := games[|games| - 1];
      var g' := g.(stats := g.stats + [StatCategory(t, [])]);
      CategoryNamesWithLast(games, g');
      assert CategoryNamesOf(g'.stats) == CategoryNamesOf(g.stats) + [t];
    case Table(rows) =>
      var g := games[|games| - 1];
      if g.stats != [] {
        var c := g.stats[|g.stats| - 1];
        var g' := g.(stats := WithLast(g.stats, c.(data := c.data + rows)));
        CategoryNamesWithLast(games, g');
        assert CategoryNamesOf(g'.stats) == CategoryNamesOf(g.stats);
      }
  }

  lemma {:induction false} FoldViews(games: seq<Game>, nodes: seq<Node>, position: nat)
    requires Fold(games, nodes, position).Success?
    ensures Titles(Fold(games, nodes, position).value) == Titles(games) + GameHeadings(nodes)
    ensures CategoryNames(Fold(games, nodes, position).value) == CategoryNames(games) + CategoryHeadings(nodes)
  {
    FoldTitles(games, nodes, position);
    FoldCategoryNames(games, nodes, position);
  }

  /** The fold appends exactly the game headings to the titles. */
  lemma {:induction false} FoldTitles(games: seq<Game>, nodes: seq<Node>, position: nat)
    requires Fold(games, nodes, position).Success?
    ensures Titles(Fold(games, nodes, position).value) == Titles(games) + GameHeadings(nodes)
    decreases |nodes|
  {
    if nodes != [] {
      var next := Step(games, nodes[0]).value;
      assert Fold(games, nodes, position) == Fold(next, nodes[1..], position + 1);
      StepViews(games, nodes[0]);
      FoldTitles(next, nodes[1..], position + 1);
      var title := if StartsGame(nodes[0]) then [nodes[0].text] else [];
      var before := Titles(games);
      var rest := GameHeadings(nodes[1..]);
      assert Titles(next) == before + title;
      assert Titles(Fold(games, nodes, position).value) == (before + title) + rest;
      assert GameHeadings(nodes) == title + rest;
      assert (before + title) + rest == before + (title + rest);
    }
  }

  /** The fold appends exactly the `h2` texts to the category names. */
  lemma {:induction false} FoldCategoryNames(games: seq<Game>, nodes: seq<Node>, position: nat)
    requires Fold(games, nodes, position).Success?
    ensures CategoryNames(Fold(games, nodes, position).value) == CategoryNames(games) + CategoryHeadings(nodes)
    decreases |nodes|
  {
    if nodes != [] {
      var next := Step(games, nodes[0]).value;
      assert Fold(games, nodes, position) == Fold(next, nodes[1..], position + 1);
      StepViews(games, nodes[0]);
      FoldCategoryNames(next, nodes[1..], position + 1);
      var category := if nodes[0].H2? then [nodes[0].text] else [];
      var before := CategoryNames(games);
      var rest := CategoryHeadings(nodes[1..]);
      assert CategoryNames(next) == before + category;
      assert CategoryNames(Fold(games, nodes, position).value) == (before + category) + rest;
      assert CategoryHeadings(nodes) == category + rest;
      assert (before + category) + rest == before + (category + rest);
    }
  }

  /**
   * A successful parse holds exactly one game per game-starting `h1`, titled
   * with its text, in document order; and its categories, read game by game,
   * are exactly the `h2` headings in document order.
   */
  lemma {:induction false} ParseMirrorsHeadings(nodes: seq<Node>)
    requires ParseNodes(nodes).Success?
    ensures Titles(ParseNodes(nodes).value) == GameHeadings(nodes)
    ensures |ParseNodes(nodes).value| == |GameHeadings(nodes)|
    ensures CategoryNames(ParseNodes(nodes).value) == CategoryHeadings(nodes)
  {
    FoldViews([], nodes, 0);
    assert Titles([]) == [];
  }

  /** Once a game exists the fold cannot fail: games are never removed. */
  lemma {:induction false} FoldWithGameSucceeds(games: seq<Game>, nodes: seq<Node>, position: nat)
    requires games != []
    ensures Fold(games, nodes, position).Success?
    ensures Fold(games, nodes, position).value != []
    decreases |nodes|
  {
    if nodes != [] {
      FoldWithGameSucceeds(Step(games, nodes[0]).value, nodes[1..], position + 1);
    }
  }

  /** From no games, the fold fails exactly when a non-`h1` precedes every game heading. */
  lemma {:induction false} FoldFromEmptyFails(nodes: seq<Node>, position: nat)
    ensures Fold([], nodes, position).Failure? <==>
      exists i :: 0 <= i < |nodes| && !nodes[i].H1? && NoGameBefore(nodes, i)
    decreases |nodes|
  {
    if nodes != [] {
      var n := nodes[0];
      if !n.H1? {
        assert NoGameBefore(nodes, 0);
      } else if StartsGame(n) {
        assert [] + [Game(n.text, [])] == [Game(n.text, [])];
        assert Fold([], nodes, position) == Fold([Game(n.text, [])], nodes[1..], position + 1);
        FoldWithGameSucceeds([Game(n.text, [])], nodes[1..], position + 1);
        forall i | 0 <= i < |nodes| && !nodes[i].H1?
          ensures !NoGameBefore(nodes, i)
        {
          assert i > 0 && StartsGame(nodes[0]);
        }
      } else {
        FoldFromEmptyFails(nodes[1..], position + 1);
        var rest := nodes[1..];
        if exists i :: 0 <= i < |rest| && !rest[i].H1? && NoGameBefore(rest, i) {
          var i :| 0 <= i < |rest| && !rest[i].H1? && NoGameBefore(rest, i);
          assert nodes[i + 1] == rest[i];
          assert NoGameBefore(nodes, i + 1);
        }
        if exists i :: 0 <= i < |nodes| && !nodes[i].H1? && NoGameBefore(nodes, i) {
          var i :| 0 <= i < |nodes| && !nodes[i].H1? && NoGameBefore(nodes, i);
          assert i > 0 && rest[i - 1] == nodes[i];
          assert NoGameBefore(rest, i - 1);
        }
      }
    }
  }

  /** A failure from no games is at a non-`h1` node preceded only by ignored `h1`s. */
  lemma {:induction false} FoldFromEmptyErrorAt(nodes: seq<Node>, position: nat)
    ensures Fold([], nodes, position).Failure? ==>
      var p := Fold([], nodes, position).error.position;
      && position <= p < position + |nodes|
      && !nodes[p - position].H1?
      && forall j :: 0 <= j < p - position ==> nodes[j].H1? && !StartsGame(nodes[j])
    decreases |nodes|
  {
    if nodes != [] {
      var n := nodes[0];
      if n.H1? && StartsGame(n) {
        assert [] + [Game(n.text, [])] == [Game(n.text, [])];
        assert Fold([], nodes, position) == Fold([Game(n.text, [])], nodes[1..], position + 1);
        FoldWithGameSucceeds([Game(n.text, [])], nodes[1..], position + 1);
      } else if n.H1? {
        FoldFromEmptyErrorAt(nodes[1..], position + 1);
        var rest := nodes[1..];
        if Fold([], nodes, position).Failure? {
          var p := Fold([], nodes, position).error.position;
          assert nodes[p - position] == rest[p - position - 1];
          forall j | 0 <= j < p - position
            ensures nodes[j].H1? && !StartsGame(nodes[j])
          {
            if j > 0 {
              assert nodes[j] == rest[j - 1];
            }
          }
        }
      }
    }
  }

  /** From no games, the fold yields no games exactly when every node is an ignored `h1`. */
  lemma {:induction false} FoldFromEmptyNoGames(nodes: seq<Node>, position: nat)
    ensures Fold([], nodes, position) == Success([]) <==>
      forall j :: 0 <= j < |nodes| ==> nodes[j].H1? && !StartsGame(nodes[j])
    decreases |nodes|
  {
    if nodes != [] {
      var n := nodes[0];
      if n.H1? && StartsGame(n) {
        assert [] + [Game(n.text, [])] == [Game(n.text, [])];
        assert Fold([], nodes, position) == Fold([Game(n.text, [])], nodes[1..], position + 1);
        FoldWithGameSucceeds([Game(n.text, [])], nodes[1..], position + 1);
      } else if n.H1? {
        FoldFromEmptyNoGames(nodes[1..], position + 1);
        var rest := nodes[1..];
        if forall j :: 0 <= j < |rest| ==> rest[j].H1? && !StartsGame(rest[j]) {
          forall j | 0 <= j < |nodes|
            ensures nodes[j].H1? && !StartsGame(nodes[j])
          {
            if j > 0 {
              assert nodes[j] == rest[j - 1];
            }
          }
        }
        if forall j :: 0 <= j < |nodes| ==> nodes[j].H1? && !StartsGame(nodes[j]) {
          forall j | 0 <= j < |rest|
            ensures rest[j].H1? && !StartsGame(rest[j])
          {
            assert rest[j] == nodes[j + 1];
          }
        }
      }
    }
  }

  lemma FoldFromEmpty(nodes: seq<Node>, position: nat)
    ensures Fold([], nodes, position).Failure? <==>
      exists i :: 0 <= i < |nodes| && !nodes[i].H1? && NoGameBefore(nodes, i)
    ensures Fold([], nodes, position).Failure? ==>
      var p := Fold([], nodes, position).error.position;
      && position <= p < position + |nodes|
      && !nodes[p - position].H1?
      && forall j :: 0 <= j < p - position ==> nodes[j].H1? && !StartsGame(nodes[j])
    ensures Fold([], nodes, position) == Success([]) <==>
      forall j :: 0 <= j < |nodes| ==> nodes[j].H1? && !StartsGame(nodes[j])
  {
    FoldFromEmptyFails(nodes, position);
    FoldFromEmptyErrorAt(nodes, position);
    FoldFromEmptyNoGames(nodes, position);
  }

  /**
   * The parse throws exactly when some `h2` or `table` comes before any
   * game-starting `h1`, and it throws at the first node of the document,
   * which must then be such an `h2` or `table` preceded only by ignored `h1`s.
   */
  lemma {:induction false} ParseFailsExactlyWithoutGame(nodes: seq<Node>)
    ensures ParseNodes(nodes).Failure? <==>
      exists i :: 0 <= i < |nodes| && !nodes[i].H1? && NoGameBefore(nodes, i)
    ensures ParseNodes(nodes).Failure? ==>
      var p := ParseNodes(nodes).error.position;
      && p < |nodes| && !nodes[p].H1?
      && forall j :: 0 <= j < p ==> nodes[j].H1? && !StartsGame(nodes[j])
  {
    FoldFromEmpty(nodes, 0);
  }

  /**
   * A document with no game-starting `h1` parses to no games at all, and it
   * parses without error exactly when every node is an ignored `h1`.
   */
  lemma {:induction false} NoGameHeadingNoGames(nodes: seq<Node>)
    requires GameHeadings(nodes) == []
    ensures ParseNodes(nodes).Success? ==> ParseNodes(nodes).value == []
    ensures ParseNodes(nodes) == Success([]) <==> forall j :: 0 <= j < |nodes| ==> nodes[j].H1?
  {
    if ParseNodes(nodes).Success? {
      ParseMirrorsHeadings(nodes);
    }
    NoGameHeadingAllIgnored(nodes);
    NoGameStartedParse(nodes);
  }

  lemma {:induction false} NoGameStartedParse(nodes: seq<Node>)
    requires forall j :: 0 <= j < |nodes| ==> !StartsGame(nodes[j])
    ensures ParseNodes(nodes) == Success([]) <==> forall j :: 0 <= j < |nodes| ==> nodes[j].H1?
  {
    FoldFromEmpty(nodes, 0);
  }

  lemma {:induction false} NoGameHeadingAllIgnored(nodes: seq<Node>)
    requires GameHeadings(nodes) == []
    ensures forall j :: 0 <= j < |nodes| ==> !StartsGame(nodes[j])
  {
    if nodes != [] {
      NoGameHeadingAllIgnored(nodes[1..]);
      forall j | 0 < j < |nodes|
        ensures !StartsGame(nodes[j])
      {
        assert nodes[j] == nodes[1..][j - 1];
      }
    }
  }

  lemma {:induction false} FoldAppend(games: seq<Game>, a: seq<Node>, b: seq<Node>, position: nat)
    ensures Fold(games, a, position).Failure? ==> Fold(games, a + b, position) == Fold(games, a, position)
    ensures Fold(games, a, position).Success? ==>
      Fold(games, a + b, position) == Fold(Fold(games, a, position).value, b, position + |a|)
    decreases |a|
  {
    if a == [] {
      assert a + b == b;
    } else {
      assert (a + b)[0] == a[0];
      assert (a + b)[1..] == a[1..] + b;
      match Step(games, a[0])
      case None =>
        assert Fold(games, a + b, position) == Failure(NoCurrentGame(position));
        assert Fold(games, a, position) == Failure(NoCurrentGame(position));
      case Some(next) =>
        assert Fold(games, a + b, position) == Fold(next, a[1..] + b, position + 1);
        assert Fold(games, a, position) == Fold(next, a[1..], position + 1);
        FoldAppend(next, a[1..], b, position + 1);
        assert position + 1 + |a[1..]| == position + |a|;
    }
  }

  lemma {:induction false} ParseSnoc(nodes: seq<Node>, node: Node)
    ensures ParseNodes(nodes + [node]) ==
      match ParseNodes(nodes)
      case Failure(e) => Failure(e)
      case Success(h) =>
        match Step(h, node)
        case None => Failure(NoCurrentGame(|nodes|))
        case Some(next) => Success(next)
  {
    FoldAppend([], nodes, [node], 0);
  }

  /**
   * An `h2` after a parsed prefix appends one empty category at the end of
   * the current game and changes nothing else; with no current game it throws.
   */
  lemma {:induction false} ParseH2AppendsCategory(nodes: seq<Node>, t: string)
    requires ParseNodes(nodes).Success?
    ensures ParseNodes(nodes).value == [] ==>
      ParseNodes(nodes + [H2(t)]) == Failure(NoCurrentGame(|nodes|))
    ensures ParseNodes(nodes).value != [] ==>
      var before := ParseNodes(nodes).value;
      var last := |before| - 1;
      && ParseNodes(nodes + [H2(t)]).Success?
      && var after := ParseNodes(nodes + [H2(t)]).value;
      && |after| == |before|
      && (forall i :: 0 <= i < last ==> after[i] == before[i])
      && after[last].title == before[last].title
      && after[last].stats == before[last].stats + [StatCategory(t, [])]
  {
    ParseSnoc(nodes, H2(t));
  }

  /**
   * A table after a parsed prefix appends its rows, in order, to the last
   * category of the current game and changes nothing else; a current game
   * with no category drops it, and with no current game it throws.
   */
  lemma {:induction false} ParseTableAppendsRows(nodes: seq<Node>, rows: seq<Row>)
    requires ParseNodes(nodes).Success?
    ensures ParseNodes(nodes).value == [] ==>
      ParseNodes(nodes + [Table(rows)]) == Failure(NoCurrentGame(|nodes|))
    ensures ParseNodes(nodes).value != [] ==>
      var before := ParseNodes(nodes).value;
      var last := |before| - 1;
      var stats := before[last].stats;
      && ParseNodes(nodes + [Table(rows)]).Success?
      && var after := ParseNodes(nodes + [Table(rows)]).value;
      && (stats == [] ==> after == before)
      && (stats != [] ==>
        && |after| == |before|
        && (forall i :: 0 <= i < last ==> after[i] == before[i])
        && after[last].title == before[last].title
        && |after[last].stats| == |stats|
        && (forall k :: 0 <= k < |stats| - 1 ==> after[last].stats[k] == stats[k])
        && after[last].stats[|stats| - 1].category == stats[|stats| - 1].category
        && after[last].stats[|stats| - 1].data == stats[|stats| - 1].data + rows)
  {
    ParseSnoc(nodes, Table(rows));
  }

  lemma {:induction false} FoldPositionIrrelevant(games: seq<Game>, nodes: seq<Node>, p: nat, q: nat)
    ensures Fold(games, nodes, p).Success? == Fold(games, nodes, q).Success?
    ensures Fold(games, nodes, p).Success? ==> Fold(games, nodes, p).value == Fold(games, nodes, q).value
    decreases |nodes|
  {
    if nodes != [] {
      match Step(games, nodes[0])
      case None =>
      case Some(next) => FoldPositionIrrelevant(next, nodes[1..], p + 1, q + 1);
    }
  }

  /**
   * An ignored heading is a complete no-op wherever it appears: it neither
   * starts a game nor resets the current one, so removing it changes neither
   * whether the parse succeeds nor the games it builds.
   */
  lemma {:induction false} IgnoredHeadingIsNoOp(a: seq<Node>, t: string, b: seq<Node>)
    requires t in IgnoredTitles
    ensures ParseNodes(a + [H1(t)] + b).Success? == ParseNodes(a + b).Success?
    ensures ParseNodes(a + b).Success? ==> ParseNodes(a + [H1(t)] + b).value == ParseNodes(a + b).value
  {
    assert a + [H1(t)] + b == a + ([H1(t)] + b);
    FoldAppend([], a, [H1(t)] + b, 0);
    FoldAppend([], a, b, 0);
    match Fold([], a, 0)
    case Failure(_) =>
    case Success(h) =>
      assert ([H1(t)] + b)[1..] == b;
      FoldPositionIrrelevant(h, b, |a| + 1, |a|);
  }

  // ---------------------------------------------------------------------------
  // The report id
  // ---------------------------------------------------------------------------

  const ReportIdLabel := "Report ID:"

  const UnknownReportId := "Unknown Report ID"

  /**
   * The text the pattern `Report ID:\s*(\d+)` captures when it is tried at
   * position `i`: after the label the white-space run is maximal (a space is
   * not a digit, so backtracking into it never helps) and the digit run is
   * maximal.
   */
  function MatchAt(text: string, i: nat): (r: Option<string>)
    requires i <= |text|
    ensures r.Some? ==> |r.value| > 0 && forall k :: 0 <= k < |r.value| ==> IsDigitOf(r.value[k], 10)
  {
    var j := i + |ReportIdLabel|;
    if j > |text| || text[i..j] != ReportIdLabel then None
    else
      var k := j + LeadingSpaces(text[j..]);
      var n := DigitRun(text[k..], 10);
      if n == 0 then None else Some(text[k..k + n])
  }

  /** The pattern matches at `i` with white space `w` and captured digits `d`. */
  ghost predicate PatternAt(text: string, i: nat, w: string, d: string) {
    var j := i + |ReportIdLabel|;
    var k := j + |w|;
    var end := k + |d|;
    && end <= |text|
    && text[i..j] == ReportIdLabel
    && text[j..k] == w
    && text[k..end] == d
    && (forall c :: 0 <= c < |w| ==> IsSpace(w[c]))
    && |d| > 0
    && (forall c :: 0 <= c < |d| ==> IsDecimalDigit(d[c]))
    && (end == |text| || !IsDecimalDigit(text[end]))
  }

  lemma {:induction false} DecimalIsDigitOf(c: char)
    ensures IsDigitOf(c, 10) <==> IsDecimalDigit(c)
  {
  }

  lemma {:induction false} MatchAtSound(text: string, i: nat)
    requires i <= |text| && MatchAt(text, i).Some?
    ensures exists w :: PatternAt(text, i, w, MatchAt(text, i).value)
  {
    var j := i + |ReportIdLabel|;
    var k := j + LeadingSpaces(text[j..]);
    var n := DigitRun(text[k..], 10);
    var w := text[j..k];
    var d := text[k..k + n];
    assert MatchAt(text, i) == Some(d);
    forall c | 0 <= c < |w| ensures IsSpace(w[c]) {
      assert w[c] == text[j..][c];
    }
    forall c | 0 <= c < |d| ensures IsDecimalDigit(d[c]) {
      assert d[c] == text[k..][c];
      DecimalIsDigitOf(d[c]);
    }
    if k + n < |text| {
      assert text[k + n] == text[k..][n];
      DecimalIsDigitOf(text[k + n]);
    }
    assert PatternAt(text, i, w, d);
  }

  lemma {:induction false} MatchAtComplete(text: string, i: nat, w: string, d: string)
    requires PatternAt(text, i, w, d)
    ensures MatchAt(text, i) == Some(d)
  {
    var j := i + |ReportIdLabel|;
    var k := j + |w|;
    var end := k + |d|;
    var afterLabel := text[j..];
    forall c | 0 <= c < |w| ensures IsSpace(afterLabel[c]) {
      assert afterLabel[c] == w[c];
    }
    assert afterLabel[|w|] == d[0];
    LeadingSpacesOfRun(afterLabel, |w|);
    var digits := text[k..];
    forall c | 0 <= c < |d| ensures IsDigitOf(digits[c], 10) {
      assert digits[c] == d[c];
      DecimalIsDigitOf(d[c]);
    }
    if |d| < |digits| {
      assert digits[|d|] == text[end];
      DecimalIsDigitOf(text[end]);
    }
    DigitRunOfRun(digits, |d|, 10);
    assert text[i..j] == ReportIdLabel;
    assert LeadingSpaces(text[j..]) == |w|;
    assert DigitRun(text[k..], 10) == |d|;
    assert text[k..k + |d|] == d;
  }

  /** `MatchAt` agrees with the regular expression, in both directions. */
  lemma {:induction false} MatchAtIsPattern(text: string, i: nat, d: string)
    requires i <= |text|
    ensures MatchAt(text, i) == Some(d) <==> exists w :: PatternAt(text, i, w, d)
  {
    if MatchAt(text, i) == Some(d) {
      MatchAtSound(text, i);
    }
    if w :| PatternAt(text, i, w, d) {
      MatchAtComplete(text, i, w, d);
    }
  }

  lemma {:induction false} LeadingSpacesOfRun(s: string, n: nat)
    requires n < |s|
    requires forall k :: 0 <= k < n ==> IsSpace(s[k])
    requires !IsSpace(s[n])
    ensures LeadingSpaces(s) == n
  {
  }

  lemma {:induction false} DigitRunOfRun(s: string, n: nat, radix: nat)
    requires n <= |s|
    requires forall k :: 0 <= k < n ==> IsDigitOf(s[k], radix)
    requires n < |s| ==> !IsDigitOf(s[n], radix)
    ensures DigitRun(s, radix) == n
  {
  }

  /** The leftmost match at or after `from`. */
  function FirstMatch(text: string, from: nat): (r: Option<string>)
    requires from <= |text|
    ensures r.Some? ==> exists i :: (from <= i <= |text| && MatchAt(text, i) == r
      && forall j :: from <= j < i ==> MatchAt(text, j).None?)
    ensures r.None? ==> forall i :: from <= i <= |text| ==> MatchAt(text, i).None?
    decreases |text| - from
  {
    var here := MatchAt(text, from);
    if here.Some? then
      assert from <= from <= |text| && MatchAt(text, from) == here;
      here
    else if from == |text| then
      None
    else
      var r := FirstMatch(text, from + 1);
      assert forall j :: from <= j <= from ==> MatchAt(text, j) == here;
      r
  }

  /**
   * `p?.textContent.match(/Report ID:\s*(\d+)/)?.[1] || 'Unknown Report ID'`
   * on the first paragraph's text.
   */
  function ReportId(firstParagraph: Option<string>): (r: string)
    ensures r == UnknownReportId <==>
      firstParagraph.None? || forall i :: 0 <= i <= |firstParagraph.value| ==> MatchAt(firstParagraph.value, i).None?
    ensures r != UnknownReportId ==>
      && |r| > 0 && (forall k :: 0 <= k < |r| ==> IsDecimalDigit(r[k]))
      && exists i :: (0 <= i <= |firstParagraph.value| && MatchAt(firstParagraph.value, i) == Some(r)
        && forall j :: 0 <= j < i ==> MatchAt(firstParagraph.value, j).None?)
  {
    match firstParagraph
    case None => UnknownReportId
    case Some(text) =>
      match FirstMatch(text, 0)
      case None => UnknownReportId
      case Some(d) =>
        assert IsDigitOf(d[0], 10);
        d
  }
}

=== FILE: text.dfy ===
/**
 * The string primitives the report pipeline leans on: JavaScript white space
 * (what `\s`, `trim` and `parseInt` skip), `parseInt` with its `|| fallback`
 * idiom, whitespace removal as done by `replace(/\s+/g, '')`, and the
 * lower-casing and substring test used to pick a game by title.
 */
module Text {
  import opened Wrappers

  /** The WhiteSpace and LineTerminator code points of ECMAScript. */
  predicate IsSpace(c: char) {
    || '\t' <= c <= '\r'
    || c == ' ' || c == '\U{A0}' || c == '\U{1680}'
    || '\U{2000}' <= c <= '\U{200A}'
    || c == '\U{2028}' || c == '\U{2029}' || c == '\U{202F}' || c == '\U{205F}'
    || c == '\U{3000}' || c == '\U{FEFF}'
  }

  predicate IsDecimalDigit(c: char) {
    '0' <= c <= '9'
  }

  predicate IsHexDigit(c: char) {
    '0' <= c <= '9' || 'a' <= c <= 'f' || 'A' <= c <= 'F'
  }

  function DigitValue(c: char): (v: nat)
    requires IsHexDigit(c)
    ensures v < 16
    ensures IsDecimalDigit(c) <==> v < 10
  {
    if '0' <= c <= '9' then c as int - '0' as int
    else if 'a' <= c <= 'f' then c as int - 'a' as int + 10
    else c as int - 'A' as int + 10
  }

  /** A digit of the given radix (10 or 16 here). */
  predicate IsDigitOf(c: char, radix: nat) {
    IsHexDigit(c) && DigitValue(c) < radix
  }

  /** Length of the longest prefix of `s` made of white space. */
  function LeadingSpaces(s: string): (n: nat)
    ensures n <= |s|
    ensures forall i :: 0 <= i < n ==> IsSpace(s[i])
    ensures n < |s| ==> !IsSpace(s[n])
  {
    if s == [] || !IsSpace(s[0]) then 0 else 1 + LeadingSpaces(s[1..])
  }

  /** Length of the longest prefix of `s` made of digits of `radix`. */
  function DigitRun(s: string, radix: nat): (n: nat)
    ensures n <= |s|
    ensures forall i :: 0 <= i < n ==> IsDigitOf(s[i], radix)
    ensures n < |s| ==> !IsDigitOf(s[n], radix)
  {
    if s == [] || !IsDigitOf(s[0], radix) then 0 else 1 + DigitRun(s[1..], radix)
  }

  /** Appends one digit below the digits already read. */
  function Shift(high: nat, radix: nat, digit: nat): nat {
    high * radix + digit
  }

  /** The number a digit string denotes, most significant digit first. */
  function Value(ds: string, radix: nat): nat
    requires forall i :: 0 <= i < |ds| ==> IsDigitOf(ds[i], radix)
  {
    if ds == [] then 0
    else
      var init := ds[..|ds| - 1];
      assert forall i :: 0 <= i < |init| ==> init[i] == ds[i];
      assert IsDigitOf(ds[|ds| - 1], radix);
      var high: nat := Value(init, radix);
      Shift(high, radix, DigitValue(ds[|ds| - 1]))
  }

  /**
   * Reads the longest run of `radix` digits at the front of `s` one digit at a
   * time onto `acc`, the value of the digits read so far (`None`: none yet).
   */
  function Digits(s: string, radix: nat, acc: Option<nat>): (r: Option<nat>)
    ensures r.None? <==> acc.None? && (s == [] || !IsDigitOf(s[0], radix))
    decreases |s|
  {
    if s == [] || !IsDigitOf(s[0], radix) then acc
    else
      var before := if acc.Some? then acc.value else 0;
      Digits(s[1..], radix, Some(Shift(before, radix, DigitValue(s[0]))))
  }

  /** The value of the longest digit prefix, or `None` when `s` starts with no digit. */
  function Magnitude(s: string, radix: nat): Option<nat> {
    Digits(s, radix, None)
  }

  lemma {:induction false} DigitsFrom(s: string, radix: nat, k: nat)
    requires 0 < k <= DigitRun(s, radix)
    ensures Digits(s, radix, None) == Digits(s[k..], radix, Some(Value(s[..k], radix)))
    decreases k
  {
    if k == 1 {
      assert s[..1][..0] == [];
      assert s[..1][0] == s[0];
    } else {
      DigitsFrom(s, radix, k - 1);
      var high := Value(s[..k - 1], radix);
      assert s[..k][..k - 1] == s[..k - 1];
      assert s[..k][k - 1] == s[k - 1];
      var v := Value(s[..k], radix);
      assert v == Shift(high, radix, DigitValue(s[k - 1]));
      assert s[k - 1..][0] == s[k - 1];
      assert s[k - 1..][1..] == s[k..];
      assert Digits(s[k - 1..], radix, Some(high)) == Digits(s[k..], radix, Some(v));
    }
  }

  /**
   * The digit-by-digit read agrees with `Value`, the most-significant-first
   * reading of the longest digit prefix.
   */
  lemma MagnitudeIsValue(s: string, radix: nat)
    ensures var n := DigitRun(s, radix);
      Magnitude(s, radix) == if n == 0 then None else Some(Value(s[..n], radix))
  {
    var n := DigitRun(s, radix);
    if n > 0 {
      DigitsFrom(s, radix, n);
    }
  }

  predicate HasHexPrefix(s: string) {
    |s| >= 2 && s[0] == '0' && (s[1] == 'x' || s[1] == 'X')
  }

  /**
   * JavaScript's `parseInt(s)` with no radix: leading white space is skipped,
   * then the rest is read by `ParseSigned`. `None` is `NaN`.
   */
  function ParseInt(s: string): (r: Option<int>)
    ensures (forall i :: 0 <= i < |s| ==> IsSpace(s[i])) ==> r.None?
    ensures s != [] && IsDecimalDigit(s[0]) && !HasHexPrefix(s) ==> r.Some? && r.value >= 0
  {
    if s != [] && IsSpace(s[0]) then ParseInt(s[1..]) else ParseSigned(s)
  }

  /**
   * `parseInt` after the white space: one optional sign, a `0x`/`0X` prefix
   * selecting radix 16, and the value of the longest run of digits after it.
   */
  function ParseSigned(t: string): (r: Option<int>)
    ensures t == [] ==> r.None?
    ensures r.Some? && r.value < 0 ==> t[0] == '-'
  {
    var negative := |t| > 0 && t[0] == '-';
    var u := if |t| > 0 && (t[0] == '-' || t[0] == '+') then t[1..] else t;
    var m := if HasHexPrefix(u) then Magnitude(u[2..], 16) else Magnitude(u, 10);
    match m
    case None => None
    case Some(v) =>
      var n: int := if negative then -(v as int) else v;
      Some(n)
  }

  /**
   * `parseInt(cell) || fallback`, where `None` is the `undefined` read past the
   * end of a row: `NaN` and `0` are both falsy, so either yields `fallback`.
   */
  function IntOr(cell: Option<string>, fallback: int): (r: int)
    ensures r != fallback ==> cell.Some? && ParseInt(cell.value) == Some(r) && r != 0
  {
    match cell
    case None => fallback
    case Some(s) =>
      match ParseInt(s)
      case Some(n) => if n != 0 then n else fallback
      case None => fallback
  }

  /** White space in front of a cell changes nothing `parseInt` reads. */
  lemma {:induction false} ParseIntSkipsSpaces(w: string, s: string)
    requires forall i :: 0 <= i < |w| ==> IsSpace(w[i])
    ensures ParseInt(w + s) == ParseInt(s)
    decreases |w|
  {
    if w != [] {
      assert (w + s)[1..] == w[1..] + s;
      ParseIntSkipsSpaces(w[1..], s);
    } else {
      assert w + s == s;
    }
  }

  /** A string with no decimal digit at all reads as `NaN`. */
  lemma {:induction false} ParseIntNoDigits(s: string)
    requires forall i :: 0 <= i < |s| ==> !IsDecimalDigit(s[i])
    ensures ParseInt(s) == None
    decreases |s|
  {
    if s != [] && IsSpace(s[0]) {
      ParseIntNoDigits(s[1..]);
    }
  }

  /**
   * A cell starting with a decimal digit (and no `0x`) reads as the value of
   * its leading digits; whatever follows them is ignored, so "12px" reads 12.
   */
  lemma ParseIntLeadingDigit(s: string)
    requires |s| > 0 && IsDecimalDigit(s[0]) && !HasHexPrefix(s)
    ensures var n := DigitRun(s, 10);
      n > 0 && ParseInt(s) == Some(Value(s[..n], 10) as int)
  {
    assert !IsSpace(s[0]);
    assert ParseInt(s) == ParseSigned(s);
    MagnitudeIsValue(s, 10);
  }

  /**
   * `parseInt(cell) || fallback` is `fallback` exactly when the cell is
   * missing, unparseable or reads as 0; otherwise it is what was read.
   */
  lemma IntOrFallback(cell: Option<string>, fallback: int)
    ensures IntOr(cell, fallback) == fallback || (cell.Some? && ParseInt(cell.value) == Some(IntOr(cell, fallback)) && IntOr(cell, fallback) != 0)
    ensures cell.Some? && ParseInt(cell.value).Some? && ParseInt(cell.value).value != 0 ==> IntOr(cell, fallback) == ParseInt(cell.value).value
  {
  }

  function DigitChar(d: nat): (c: char)
    requires d < 10
    ensures IsDecimalDigit(c) && DigitValue(c) == d
  {
    ('0' as int + d) as char
  }

  /** Decimal rendering of a natural number, as the report prints its counters. */
  function ShowNat(n: nat): (s: string)
    ensures |s| > 0
    ensures forall i :: 0 <= i < |s| ==> IsDecimalDigit(s[i])
    ensures s[0] == '0' ==> s == "0"
  {
    if n < 10 then [DigitChar(n)] else ShowNat(n / 10) + [DigitChar(n % 10)]
  }

  function ShowInt(n: int): string {
    if n < 0 then "-" + ShowNat(-n) else ShowNat(n)
  }

  lemma {:induction false} ValueOfShowNat(n: nat)
    ensures forall i :: 0 <= i < |ShowNat(n)| ==> IsDigitOf(ShowNat(n)[i], 10)
    ensures Value(ShowNat(n), 10) == n
  {
    var s := ShowNat(n);
    if n >= 10 {
      ValueOfShowNat(n / 10);
      assert s[..|s| - 1] == ShowNat(n / 10);
    }
  }

  /** `parseInt` reads back every integer printed in decimal. */
  lemma ParseShowInt(n: int)
    ensures ParseInt(ShowInt(n)) == Some(n)
  {
    var m: nat := if n < 0 then -n else n;
    var d := ShowNat(m);
    assert Magnitude(d, 10) == Some(m) by {
      ValueOfShowNat(m);
      DigitRunAll(d, 10);
      assert d[..|d|] == d;
      MagnitudeIsValue(d, 10);
    }
    assert !HasHexPrefix(d) && IsDecimalDigit(d[0]);
    assert !IsSpace(d[0]);
    if n < 0 {
      var s := ShowInt(n);
      assert s == "-" + d;
      assert s[0] == '-' && s[1..] == d;
      assert ParseSigned(s) == Some(n);
    } else {
      assert ParseSigned(d) == Some(n);
    }
  }

  lemma DigitRunAll(s: string, radix: nat)
    requires forall i :: 0 <= i < |s| ==> IsDigitOf(s[i], radix)
    ensures DigitRun(s, radix) == |s|
  {
  }

  /** What `replace(/\s+/g, '')` leaves: the non-space characters, in order. */
  function RemoveSpaces(s: string): (r: string)
    ensures |r| <= |s|
    ensures forall i :: 0 <= i < |r| ==> !IsSpace(r[i])
  {
    if s == [] then []
    else (if IsSpace(s[0]) then [] else [s[0]]) + RemoveSpaces(s[1..])
  }

  /** Exactly the characters of `s` that are not white space survive. */
  lemma {:induction false} RemoveSpacesKeeps(s: string, c: char)
    ensures c in RemoveSpaces(s) <==> c in s && !IsSpace(c)
  {
    if s != [] {
      RemoveSpacesKeeps(s[1..], c);
      assert c in s <==> c == s[0] || c in s[1..];
    }
  }

  lemma {:induction false} RemoveSpacesKeepsSpaceless(s: string)
    requires forall i :: 0 <= i < |s| ==> !IsSpace(s[i])
    ensures RemoveSpaces(s) == s
  {
    if s != [] {
      RemoveSpacesKeepsSpaceless(s[1..]);
    }
  }

  /** Stripping white space twice is stripping it once. */
  lemma RemoveSpacesIdempotent(s: string)
    ensures RemoveSpaces(RemoveSpaces(s)) == RemoveSpaces(s)
  {
    RemoveSpacesKeepsSpaceless(RemoveSpaces(s));
  }

  lemma {:induction false} RemoveSpacesAppend(a: string, b: string)
    ensures RemoveSpaces(a + b) == RemoveSpaces(a) + RemoveSpaces(b)
  {
    if a != [] {
      var head := if IsSpace(a[0]) then [] else [a[0]];
      assert (a + b)[0] == a[0];
      assert (a + b)[1..] == a[1..] + b;
      RemoveSpacesAppend(a[1..], b);
      calc {
        RemoveSpaces(a + b);
        head + RemoveSpaces(a[1..] + b);
        head + (RemoveSpaces(a[1..]) + RemoveSpaces(b));
        (head + RemoveSpaces(a[1..])) + RemoveSpaces(b);
      }
    } else {
      assert a + b == b;
    }
  }

  function LowerChar(c: char): char {
    if 'A' <= c <= 'Z' then (c as int - 'A' as int + 'a' as int) as char else c
  }

  /**
   * `toLowerCase` on the ASCII letters: no upper-case letter is left, each is
   * replaced by its lower-case partner, and every other character is kept.
   */
  function LowerAscii(s: string): (r: string)
    ensures |r| == |s|
    ensures forall i :: 0 <= i < |r| ==> !('A' <= r[i] <= 'Z')
    ensures forall i :: 0 <= i < |s| && 'A' <= s[i] <= 'Z' ==> r[i] as int == s[i] as int + 32
    ensures forall i :: 0 <= i < |s| && !('A' <= s[i] <= 'Z') ==> r[i] == s[i]
  {
    seq(|s|, i requires 0 <= i < |s| => LowerChar(s[i]))
  }

  /** Lower-casing twice is lower-casing once. */
  lemma LowerAsciiIdempotent(s: string)
    ensures LowerAscii(LowerAscii(s)) == LowerAscii(s)
  {
    var l := LowerAscii(s);
    assert forall i :: 0 <= i < |l| ==> LowerAscii(l)[i] == l[i];
  }

  /** Lower-casing distributes over concatenation. */
  lemma LowerAsciiAppend(a: string, b: string)
    ensures LowerAscii(a + b) == LowerAscii(a) + LowerAscii(b)
  {
    var l := LowerAscii(a + b);
    var m := LowerAscii(a) + LowerAscii(b);
    assert |l| == |m|;
    forall i | 0 <= i < |l|
      ensures l[i] == m[i]
    {
      if i < |a| {
        assert (a + b)[i] == a[i];
      } else {
        assert (a + b)[i] == b[i - |a|];
      }
    }
  }

  predicate OccursAt(hay: string, needle: string, i: int) {
    0 <= i <= |hay| - |needle| && hay[i..i + |needle|] == needle
  }

  /** `hay.includes(needle)`: the empty needle is found everywhere, and no needle longer than `hay`. */
  function Contains(hay: string, needle: string): (b: bool)
    ensures b ==> |needle| <= |hay|
    ensures needle == [] ==> b
  {
    assert needle == [] ==> OccursAt(hay, needle, 0);
    exists i | 0 <= i <= |hay| :: OccursAt(hay, needle, i)
  }

  /** A needle found in `hay` is found in any text that surrounds `hay`. */
  lemma ContainsWithin(a: string, hay: string, c: string, needle: string)
    requires Contains(hay, needle)
    ensures Contains(a + hay + c, needle)
  {
    var i :| 0 <= i <= |hay| && OccursAt(hay, needle, i);
    var big := a + hay + c;
    assert big[|a| + i..|a| + i + |needle|] == hay[i..i + |needle|];
    assert OccursAt(big, needle, |a| + i);
  }
}

=== FILE: wrappers.dfy ===
/** Failure-compatible wrappers shared by the rest of the model. */
module Wrappers {

  /** A value that may be absent: `undefined`, `null` or `NaN` on the JavaScript side. */
  datatype Option<+T> = None | Some(value: T)

  /** The outcome of a step that can throw: `Failure` carries what was thrown. */
  datatype Result<+R, +E> = Success(value: R) | Failure(error: E)
}
